=== FILE: README.md ===
# Longitudinal planner decision layer

A Dafny model of the per-cycle decision logic of the longitudinal planner in
`selfdrive/controls/lib/longitudinal_planner.py`. The numeric optimizer is left out. Each
cycle the planner does the following:

- **Conditional end-to-end mode.** It picks the optimizer's cost mode (ACC or blended) with a
  debounced lead flag and a stop-and-go window. When that scheme is off, it re-reads the
  experimental-mode setting every 50 cycles instead.
- **Acceleration bounds.** It derives the bounds from the acceleration profile and derates the
  upper bound by the lateral load in turns. Under a forced deceleration it pulls the upper bound
  down. It then widens the bounds so that they bracket the acceleration the optimizer starts
  from.
- **Speed arbitration.** It chooses the cruise set speed or the slowest active advisory
  controller: vision turn, speed limit or map turn speed.
- **References.** It resamples the driving model's trajectories onto the optimizer's grid and
  selects the following time.
- **After the optimizer.** It resamples the optimizer's solution onto the output grid and raises
  the forward-collision warning. It advances the warm start, meaning the starting acceleration
  and filtered speed for the next cycle.

Modules:

| file | module | models |
|---|---|---|
| `numeric.dfy` | `Numeric` | `min`, `max`, `clip`, the +∞ accel of the cruise candidate (`ExtReal`), sequence extremes |
| `interpolation.dfy` | `Interpolation` | piecewise-linear interpolation with flat extrapolation, and resampling between time grids |
| `mode_arbiter.dfy` | `ModeArbiter` | `conditional_e2e` as a pure transition `(ModeState, Inputs) → (ModeState, Mode, reset)` |
| `limits.dfy` | `Limits` | `dp_calc_cruise_accel_limits`, `get_max_accel`, `limit_accel_in_turns`, and the limit pipeline of `update` |
| `speed_arbiter.dfy` | `SpeedArbiter` | `cruise_solutions`: the first minimum by velocity over the insertion-ordered candidates |
| `planner.dfy` | `Planner` | `read_param`'s mode rule and schedule, `parse_model`, `get_df`, and `update` |

`update` is split at the optimizer call:

- `Prepare` runs up to line 295 and returns the state and the optimizer's request.
- `Conclude` runs lines 297-309 on the optimizer's solution.
- `Update` composes the two.

Everything is exact `real` arithmetic. Integers are unbounded, and the counters of the source
are unbounded Python integers too.

Collaborators whose code is not part of this model become parameters:

- the square root, which is assumed non-negative;
- the first-order filter step;
- the outputs of the three advisory controllers;
- the optimizer's solution.

The constants imported from other files are supplied by the caller through `Tuning` and
`Grids`:

- `MIN_ACCEL`, `MAX_ACCEL` and `T_FOLLOW`;
- `V_CRUISE_MAX`;
- `T_IDXS`, `T_IDXS_MPC`, `CONTROL_N` and `DT_MDL`.

The constants defined in the planner file are reproduced literally.

Behaviour of the code worth knowing, as modelled:

- The stop-and-go counter `dp_e2e_sng_count` is never reset. Lines 159 and 165 write `0` to
  the window flag, which already holds `False` or is about to, and never to the counter. The
  model treats that `0` as `false`.
- An armed window stays blended while the cumulative counter is below 250
  (`ModeArbiter.StopAndGoWindow`). The first uninterrupted window after start-up therefore
  gives 249 blended moving cycles. All pull-aways together get at most those 249 window
  cycles. Once the counter has reached 249, later pull-aways get none (see Findings). The
  comment at line 168 describes the window as a few seconds of blended control after each
  transition from standstill to moving.
- A lead commit needs the raw flag held for 51 consecutive cycles: the cycle on which it
  changes plus 50 agreeing ones (`ModeArbiter.SteadyLeadCommits`).

## Model

All source cells refer to `selfdrive/controls/lib/longitudinal_planner.py`.

| member | source | states |
|---|---|---|
| Numeric.Clip | selfdrive/controls/lib/longitudinal_planner.py:271 | `max(lo, min(hi, x))`: the clipped value lies in `[lo, hi]` when `lo <= hi`, is `x` itself when `x` is already inside, is `lo` when `x` is below `lo` or the interval is empty, is `hi` when `x` is above a non-empty interval, and is always one of `x`, `lo`, `hi` |
| Numeric.MinExt | selfdrive/controls/lib/longitudinal_planner.py:289 | minimum against a possibly infinite accel: at most both arguments, equal to one of them, and the finite argument when the other is +∞ |
| Interpolation.InterpWithin | selfdrive/controls/lib/longitudinal_planner.py:74 | table interpolation never leaves the range of the table's values |
| Interpolation.InterpAtKnot | selfdrive/controls/lib/longitudinal_planner.py:191-193 | interpolation reproduces the table value exactly at each breakpoint |
| Interpolation.InterpFlatAbove | selfdrive/controls/lib/longitudinal_planner.py:74 | at or beyond the last breakpoint the last table value is held |
| Interpolation.Resample | selfdrive/controls/lib/longitudinal_planner.py:297-299 | resampling onto a time grid has one sample per target time, each the interpolation at that time |
| Interpolation.ResampleWithin | selfdrive/controls/lib/longitudinal_planner.py:297-299 | every resampled value lies within the range of the source values |
| Interpolation.ResampleAtKnots | selfdrive/controls/lib/longitudinal_planner.py:297-299 | where a target time equals a source time the source sample is reproduced |
| ModeArbiter.ConditionalE2E | selfdrive/controls/lib/longitudinal_planner.py:137-184 | the lead counter restarts on a flip and counts up otherwise, and the committed lead changes only when the incremented count reaches 50, then to the raw flag; the window arms only on a standstill-to-moving transition, its counter grows by one exactly while armed and never falls, an armed moving window stays armed iff its counter is below 250, and standstill disarms it; the mode is blended iff standstill, or armed window, or within speed condition without a committed lead; reset iff the mode differs from last cycle's; history fields hold this cycle's inputs |
| ModeArbiter.FlickerKeepsLead | selfdrive/controls/lib/longitudinal_planner.py:143-150 | debounce invariant over many cycles: while a flip is always due before the counter can reach 50, the committed lead is unchanged |
| ModeArbiter.FlickerNeverCommits | selfdrive/controls/lib/longitudinal_planner.py:143-150 | starting from a reset lead counter, a raw lead flag that flips at least once in every 50 consecutive cycles never changes the committed lead |
| ModeArbiter.SteadyLeadFrom | selfdrive/controls/lib/longitudinal_planner.py:143-150 | a steady raw flag adds one to the lead counter per cycle and is committed once the counter reaches 50 |
| ModeArbiter.SteadyLeadCommits | selfdrive/controls/lib/longitudinal_planner.py:143-150 | a raw flag held for 51 consecutive cycles is committed, whatever the earlier state |
| ModeArbiter.WindowWhileMoving | selfdrive/controls/lib/longitudinal_planner.py:152-174 | while moving above the condition speed, an armed window stays armed exactly while counter plus elapsed cycles is below 250, the counter saturates at 250, a disarmed window stays disarmed, and the mode is blended iff armed |
| ModeArbiter.StopAndGoWindow | selfdrive/controls/lib/longitudinal_planner.py:152-176 | after a standstill, cruising keeps the blended mode iff the counter plus the cycles since pulling away is below 250, and then switches to ACC |
| ModeArbiter.CounterNeverDecreases | selfdrive/controls/lib/longitudinal_planner.py:155-166 | over any run of cycles the stop-and-go counter never decreases |
| ModeArbiter.CounterSpentByFirstWindow | selfdrive/controls/lib/longitudinal_planner.py:152-159 | a standstill followed by 249 cruising cycles leaves the counter at 249 or more, whatever the history |
| ModeArbiter.SngWindowSpentAfterFirstUse | selfdrive/controls/lib/longitudinal_planner.py:152-170 | as written, after one full window a second standstill and pull-away goes straight to ACC with no window |
| ModeArbiter.ConditionalE2EIntended | selfdrive/controls/lib/longitudinal_planner.py:157-166 | corrected transition: the counter is cleared at standstill; when armed and moving it advances by one and is cleared on the cycle the window closes; when neither armed nor at standstill it is kept; so it stays below 250. Outside the counter it agrees with the transition as written in state, mode and reset flag |
| ModeArbiter.IntendedWindowWhileMoving | selfdrive/controls/lib/longitudinal_planner.py:152-174 | with the corrected transition, an armed window stays armed exactly while counter plus elapsed cycles is below 250, with the mode blended iff armed |
| ModeArbiter.IntendedStopAndGoWindow | selfdrive/controls/lib/longitudinal_planner.py:152-176 | with the corrected transition, every standstill followed by cruising gives exactly 249 blended cycles and then ACC, whatever the history |
| Limits.MinTable | selfdrive/controls/lib/longitudinal_planner.py:62-70 | the lower-bound table of every profile is a valid table of constant −1.0 |
| Limits.MaxTable | selfdrive/controls/lib/longitudinal_planner.py:62-70 | eco, sport and the fallback (normal and unknown profiles) select tables with ranges 0.06..2.5, 0.5..3.5 and 0.13..3.5 and the listed end values |
| Limits.DpCalcCruiseAccelLimits | selfdrive/controls/lib/longitudinal_planner.py:61-71 | the lower limit is −1.0 for every profile, and the upper limit lies in the profile's range and is held at both table ends (v ≤ 0, v ≥ 55) |
| Limits.GetMaxAccel | selfdrive/controls/lib/longitudinal_planner.py:73-74 | the default maximum acceleration lies in 0.6..1.6, 1.6 at or below 0 and 0.6 at or above 40 |
| Limits.TotalMaxAccel | selfdrive/controls/lib/longitudinal_planner.py:85 | the combined budget lies in 1.7..3.2, flat below 20 and above 40 |
| Limits.LateralAccel | selfdrive/controls/lib/longitudinal_planner.py:86 | the lateral estimate times steer ratio times wheelbase equals v² · angle · deg-to-rad, and is zero when v or the angle is zero |
| Limits.AllowedLongAccel | selfdrive/controls/lib/longitudinal_planner.py:87 | the longitudinal headroom is non-negative |
| Limits.LimitAccelInTurns | selfdrive/controls/lib/longitudinal_planner.py:77-89 | the lower bound is untouched, and the upper bound is the smaller of the target's and the headroom, so it never rises and stays non-negative when it was |
| Limits.BaseLimits | selfdrive/controls/lib/longitudinal_planner.py:259-266 | without profile control both pairs are `[MIN_ACCEL, MAX_ACCEL]`; with it the cruise pair is exactly the profile's limits (lower −1.0, upper positive) and the turn pair is exactly those limits narrowed by the turn rule (same lower bound, upper bound between 0 and the cruise upper bound); both pairs are ordered |
| Limits.ForceSlowDecel | selfdrive/controls/lib/longitudinal_planner.py:283-286 | the upper bound becomes at most −0.2 and the lower bound at most the upper bound; neither rises, and bounds that already comply are unchanged |
| Limits.ClipToState | selfdrive/controls/lib/longitudinal_planner.py:288-290 | the lower bound ends at most `a_desired + 0.05` and at most the chosen source's accel, the upper at least `a_desired − 0.05`; the lower only falls and the upper only rises, ordering is preserved, and compliant bounds are unchanged |
| SpeedArbiter.Candidates | selfdrive/controls/lib/longitudinal_planner.py:357-370 | the cruise candidate with +∞ accel is always first, and each active controller contributes exactly its candidate, in insertion order |
| SpeedArbiter.FirstMin | selfdrive/controls/lib/longitudinal_planner.py:372 | the chosen index has the least velocity, and every earlier candidate is strictly faster |
| SpeedArbiter.CruiseSolutions | selfdrive/controls/lib/longitudinal_planner.py:356-374 | the choice is one of the candidates, no faster than any active one; an advisory wins only when strictly slower than every candidate listed before it, and its accel and velocity come from the same source; with nothing active it is (cruise, +∞, `v_cruise`) |
| SpeedArbiter.ChoiceIsLexicographicMinimum | selfdrive/controls/lib/longitudinal_planner.py:372 | the choice is the least candidate by velocity and then listing order |
| Planner.ReadParamMode | selfdrive/controls/lib/longitudinal_planner.py:132-134 | the mode read from the store is blended iff experimental mode is on and the planner controls the longitudinal axis |
| Planner.ReadsOverSplit | selfdrive/controls/lib/longitudinal_planner.py:241-243 | the number of reads over consecutive cycles adds up across adjacent stretches |
| Planner.NoReadsBeforeBoundary | selfdrive/controls/lib/longitudinal_planner.py:241 | no read falls strictly between two multiples of 50 |
| Planner.OneReadPerPeriod | selfdrive/controls/lib/longitudinal_planner.py:240-243 | any 50 consecutive non-conditional cycles with reading allowed contain exactly one read |
| Planner.ParseModel | selfdrive/controls/lib/longitudinal_planner.py:187-200 | all four references have the optimizer grid's length and the jerk is zero; a wrong-length array makes everything zero, and otherwise each reference is the interpolated model value with velocity less the bias and position less bias · t |
| Planner.ParseModelAtSharedTimes | selfdrive/controls/lib/longitudinal_planner.py:191-193 | at an optimizer time that is also a model time, the references are the model's own samples shifted by the bias |
| Planner.GetDf | selfdrive/controls/lib/longitudinal_planner.py:202-224 | the following time is `T_FOLLOW` unless following-profile control is on, the mode is ACC and the profile is 0, 1 or 2; then it lies in that profile's range and is 1.2 at standstill speed |
| Planner.Init | selfdrive/controls/lib/longitudinal_planner.py:93-130 | a fresh planner takes its mode from the store rule, starts the arbiter in its initial state (ACC, no lead, all counters zero), seeds speed and accel from the initial values, and has all-zero speed, accel and jerk trajectories of the output length |
| Planner.E2EInputs | selfdrive/controls/lib/longitudinal_planner.py:235-237 | the arbiter's raw lead is set iff the radar tracks a lead within 50 distance units; the speed condition holds iff the unclamped set speed is at most the configured speed; standstill is passed through and the lead's speed is its relative speed plus the ego speed |
| Planner.UpdateMode | selfdrive/controls/lib/longitudinal_planner.py:234-243 | with the conditional scheme the arbiter steps as written on the inputs of `E2EInputs`, its mode is used, and the mode-change reset is raised iff the mode changed, leaving the read counter alone; without it the arbiter is untouched, the counter advances, and the mode is re-read on a due cycle (`ParamReadDue`: reading allowed and the counter a multiple of 50, line 241) and kept otherwise |
| Planner.UpdateModeIntended | selfdrive/controls/lib/longitudinal_planner.py:234-243 | the mode update with the corrected arbiter transition: the arbiter follows `ConditionalE2EIntended`, and on any single cycle the mode and reset flag are those of the update as written |
| Planner.SettingKept | selfdrive/controls/lib/longitudinal_planner.py:240-243 | once the mode agrees with a steady persisted setting, further non-conditional cycles keep it whether or not a read is due, advance the read counter once per cycle and leave the arbiter untouched |
| Planner.SettingPickedUp | selfdrive/controls/lib/longitudinal_planner.py:240-243 | with reading allowed, a steady setting is in force from the first cycle whose counter is a multiple of 50 onwards |
| Planner.SettingInForceWithinPeriod | selfdrive/controls/lib/longitudinal_planner.py:240-243 | after any 50 non-conditional cycles with reading allowed, the mode is the one the persisted setting selects, whatever the earlier mode and counter |
| Planner.CruiseSpeed | selfdrive/controls/lib/longitudinal_planner.py:246-248 | the cruise speed is the smaller of the set speed and the maximum, in metres per second |
| Planner.Seed | selfdrive/controls/lib/longitudinal_planner.py:268-271 | on a reset the speed is re-seeded with the measured speed and the accel is the measured accel clipped into the cruise limits: itself when inside, the nearer bound otherwise; without a reset both carry over |
| Planner.CycleBounds | selfdrive/controls/lib/longitudinal_planner.py:283-290 | the final bounds are ordered and bracket `a_desired` within 0.05, the lower is at most the chosen source's accel and the turn lower bound and is one of the three terms of the `min` at line 289 (the turn lower bound, or under forced deceleration the pulled-down lower bound; `a_desired + 0.05`; the source's accel); under forced deceleration the upper is at most max(−0.2, `a_desired − 0.05`); otherwise the upper lies between the turn upper bound and max(turn upper, `a_desired − 0.05`), and turn bounds that already bracket `a_desired` and lie below the source's accel pass through unchanged |
| Planner.CycleLimits | selfdrive/controls/lib/longitudinal_planner.py:259-266 | both limit pairs of the cycle are ordered |
| Planner.PrepareState | selfdrive/controls/lib/longitudinal_planner.py:245-281 | after either reset (`ResetState`, line 254, or the mode-change reset) the desired accel is the measured accel clipped into this cycle's cruise limits, and the filter is fed the measured speed as state and input; otherwise both carry over; the filtered speed is floored at 0; the model bias is updated only when a translation sample exists; the source is the arbitration winner |
| Planner.BuildRequest | selfdrive/controls/lib/longitudinal_planner.py:283-295 | the request's bounds are exactly the cycle bounds of the turn limits, the forced-deceleration flag, the desired accel and the winner's accel, hence ordered, bracketing the starting accel within 0.05 and below the winner's accel; the start state is the filtered speed and desired accel; the speed target is the winner's speed and never exceeds the cruise speed; the change cost is on iff neither `ResetState` (line 254) nor standstill |
| Planner.Prepare | selfdrive/controls/lib/longitudinal_planner.py:226-295 | the cycle's state is the prepared state and the request is built from it; the optimizer is started inside its own bounds, also after a reset, with bounds below the winning advisory's accel and under the forced-deceleration cap |
| Planner.OutputTimes | selfdrive/controls/lib/longitudinal_planner.py:297 | the output grid is the first `CONTROL_N` model times, strictly increasing |
| Planner.OutputTrajectories | selfdrive/controls/lib/longitudinal_planner.py:297-299 | the output trajectories have `CONTROL_N` samples within the range of the solution and reproduce it at shared times |
| Planner.NextAccel | selfdrive/controls/lib/longitudinal_planner.py:306-308 | the next starting accel lies within the output accel trajectory's range, is the trajectory's sample wherever one cycle period coincides with an output time, and is its last sample at or beyond the last output time |
| Planner.Advance | selfdrive/controls/lib/longitudinal_planner.py:309 | the speed gain is the trapezoid `dt · (a_prev + a_new) / 2`, between `dt` times the smaller and the larger accel |
| Planner.Conclude | selfdrive/controls/lib/longitudinal_planner.py:297-309 | the forward-collision warning is raised iff the crash count exceeds 2 and the car moves; trajectories have the output length within the solution's range; the accel trajectory is the solution resampled at the output times and the next accel is that trajectory read at the model step; the speed advances by the trapezoid; mode, arbiter and source are kept |
| Planner.Update | selfdrive/controls/lib/longitudinal_planner.py:226-309 | over a whole cycle: the level-triggered collision warning; mode and arbiter are those of `UpdateMode`, so with the conditional scheme the mode equals the arbiter's last mode; without it the arbiter is untouched and the read counter advances; the accel trajectory is the solution resampled at the output times, the next accel is that trajectory read at the model step and lies in the solution's range, the filtered speed advances by the trapezoid from the prepared speed and accel, and the model bias is the prepared one |

## Left out

- `publish` (lines 311-347) builds and sends the output message. It is transport only, so the
  choice of reported source at line 325 is not modelled.
- Reading the configuration store (lines 104 and 133) is I/O. The persisted experimental flag
  is an input of each cycle, and `read` is the caller's flag.
- The optimizer (`LongitudinalMpc`) is a numeric solver whose code is not part of this model.
  Its solution and crash counter are inputs to `Conclude`, and `set_accel_limits`,
  `set_cur_state` and `update` become the fields of `SolverRequest`.
- The updates of the vision turn, speed limit and turn speed controllers, and `Events`
  (lines 351-354), are separate control loops whose code is not part of this model. Only
  their active flag and accel and speed targets are inputs. The `enabled` argument passed to
  them therefore has no effect in the model.
- `common/numpy_fast` and `np.interp` are not part of this model. `Interpolation.Interp`
  defines them in the conventional way: piecewise-linear with flat extrapolation on strictly
  increasing breakpoints.
- `FirstOrderFilter.update` is not part of this model. It is a caller-supplied function of
  state and input, and its own smoothing and convergence are not modelled.
- A zero `steerRatio · wheelbase` would raise `ZeroDivisionError` at line 86, which only runs
  under profile control. The model requires a non-zero product of the car parameters instead
  (`Limits.LateralAccel`), since real cars have positive values. Through `Planner.ValidConfig`
  every cycle (`Planner.Prepare`, `Planner.Update` and the members they call) carries this
  requirement, also without profile control, where the code would not divide.
- `math.sqrt` is a caller-supplied function, assumed only to be non-negative on non-negative
  arguments.
- Limits.AllowedLongAccel: states only that the headroom is non-negative, because the square
  root is abstract. That it is the root of `max(a_total_max² − a_y², 0)` is its body.
- `DP_ACCEL_NORMAL` (line 40) is never referenced by the code; every profile other than eco
  and sport takes the normal tables, so the model has no constant for it.
- Lines 262-263 are dead code: they test `not self.dp_accel_profile_ctrl` inside
  `if self.dp_accel_profile_ctrl`, so `A_CRUISE_MIN` and `get_max_accel` never feed the
  limits. `Limits.GetMaxAccel` is modelled on its own and not called by the cycle.
- IEEE floating point, including NaN and infinities other than the cruise candidate's +∞, is
  replaced by exact reals.
- The `cloudlog` message at line 304 and `solverExecutionTime` are logging only.
- `LON_MPC_STEP` (line 22) is unused by the planner file.

## Findings

| source | as written | input that shows it | evidently intended | confidence | as-written member | corrected member |
|---|---|---|---|---|---|---|
| selfdrive/controls/lib/longitudinal_planner.py:157-166 | where the window closes and at standstill, `dp_e2e_sng` is cleared a second time, so `dp_e2e_sng_count` is never reset | a standstill, 249 or more cruising cycles, a second standstill, then cruising: the second pull-away gets no blended window and goes straight to ACC | clear `dp_e2e_sng_count` at those two places, so every pull-away from standstill keeps the blended mode for 249 cycles | not executed | ModeArbiter.SngWindowSpentAfterFirstUse | ModeArbiter.IntendedStopAndGoWindow |

The planner cycle (`Planner.UpdateMode`, `Planner.Update`) models the code as written, with
`ModeArbiter.ConditionalE2E`. `Planner.UpdateModeIntended` is the mode update with the
corrected transition `ModeArbiter.ConditionalE2EIntended`. On any single cycle the two give
the same mode and reset flag. Over several cycles they diverge, because the counter differs:
after one full window, the corrected version gives a second pull-away 249 blended cycles
(`ModeArbiter.IntendedStopAndGoWindow`), while the code as written gives none
(`ModeArbiter.SngWindowSpentAfterFirstUse`).

=== FILE: interpolation.dfy ===
/** Piecewise-linear interpolation over a breakpoint table with flat extrapolation
    beyond both ends, the behaviour shared by the scalar `interp` helper and
    `np.interp` on strictly increasing breakpoints; and its element-wise use to
    resample a trajectory from one time grid onto another. */
module Interpolation {
  import opened Numeric

  predicate StrictlyIncreasing(xs: seq<real>)
  {
    forall i, j :: 0 <= i < j < |xs| ==> xs[i] < xs[j]
  }

  /** A usable lookup table: matching, non-empty breakpoint and value lists. */
  predicate Table(xp: seq<real>, fp: seq<real>)
  {
    |xp| == |fp| >= 1 && StrictlyIncreasing(xp)
  }

  lemma TableTail(xp: seq<real>, fp: seq<real>)
    requires Table(xp, fp) && |xp| >= 2
    ensures Table(xp[1..], fp[1..])
  {
    forall i, j | 0 <= i < j < |xp[1..]|
      ensures xp[1..][i] < xp[1..][j]
    {
      assert xp[1..][i] == xp[i + 1] && xp[1..][j] == xp[j + 1];
    }
  }

  function Interp(x: real, xp: seq<real>, fp: seq<real>): real
    requires Table(xp, fp)
    decreases |xp|
  {
    if x <= xp[0] || |xp| == 1 then fp[0]
    else if x <= xp[1] then Lerp(fp[0], fp[1], x - xp[0], xp[1] - xp[0])
    else
      TableTail(xp, fp);
      Interp(x, xp[1..], fp[1..])
  }

  /** The point a fraction `u / d` of the way from `a` to `b`. */
  function Lerp(a: real, b: real, u: real, d: real): real
    requires d != 0.0
  {
    a + u * (b - a) / d
  }

  /** A point a fraction `u / d` of the way from `a` to `b` stays in any interval holding both. */
  lemma LerpWithin(a: real, b: real, u: real, d: real, lo: real, hi: real)
    requires 0.0 < u <= d
    requires lo <= a <= hi && lo <= b <= hi
    ensures lo <= Lerp(a, b, u, d) <= hi
  {
    var t := u / d;
    var c := b - a;
    FractionOfWhole(u, d);
    DivideAfterScaling(u, c, d);
    var m := t * c;
    assert Lerp(a, b, u, d) == a + m;
    assert (1.0 - t) * c == c - m;
    if c >= 0.0 {
      ScaleMonotone(t, 0.0, c);
      ScaleMonotone(1.0 - t, 0.0, c);
    } else {
      ScaleMonotone(t, c, 0.0);
      assert m <= 0.0;
      ScaleMonotone(1.0 - t, c, 0.0);
      assert c - m <= 0.0;
    }
  }

  lemma FractionOfWhole(u: real, d: real)
    requires 0.0 < u <= d
    ensures 0.0 < u / d <= 1.0
  {
    var t := u / d;
    assert t * d == u;
  }

  lemma DivideAfterScaling(u: real, c: real, d: real)
    requires d != 0.0
    ensures u * c / d == (u / d) * c
  {
    var t := u / d;
    assert t * d == u;
    assert (t * c) * d == (t * d) * c;
  }

  lemma LerpAtEnd(a: real, b: real, d: real)
    requires d != 0.0
    ensures Lerp(a, b, d, d) == b
  {
    assert d * (b - a) / d == b - a;
  }

  lemma ScaleMonotone(c: real, p: real, q: real)
    requires c >= 0.0 && p <= q
    ensures c * p <= c * q
  {
  }

  /** Interpolation never leaves the range of the table's values. */
  lemma {:induction false} InterpWithin(x: real, xp: seq<real>, fp: seq<real>, lo: real, hi: real)
    requires Table(xp, fp)
    requires Within(fp, lo, hi)
    ensures lo <= Interp(x, xp, fp) <= hi
    decreases |xp|
  {
    if x <= xp[0] || |xp| == 1 {
    } else if x <= xp[1] {
      assert lo <= fp[0] <= hi && lo <= fp[1] <= hi;
      LerpWithin(fp[0], fp[1], x - xp[0], xp[1] - xp[0], lo, hi);
    } else {
      TableTail(xp, fp);
      assert forall k :: 0 <= k < |fp[1..]| ==> fp[1..][k] == fp[k + 1];
      InterpWithin(x, xp[1..], fp[1..], lo, hi);
    }
  }

  /** Interpolation reproduces the table exactly at every breakpoint. */
  lemma {:induction false} InterpAtKnot(xp: seq<real>, fp: seq<real>, i: nat)
    requires Table(xp, fp) && i < |xp|
    ensures Interp(xp[i], xp, fp) == fp[i]
    decreases |xp|
  {
    var x := xp[i];
    if i == 0 {
    } else {
      assert x > xp[0];
      if x <= xp[1] {
        assert i == 1 && x == xp[1];
        LerpAtEnd(fp[0], fp[1], xp[1] - xp[0]);
      } else {
        TableTail(xp, fp);
        assert xp[1..][i - 1] == x;
        InterpAtKnot(xp[1..], fp[1..], i - 1);
      }
    }
  }

  /** At or beyond the last breakpoint the last value is held. */
  lemma {:induction false} InterpFlatAbove(x: real, xp: seq<real>, fp: seq<real>)
    requires Table(xp, fp)
    ensures x >= xp[|xp| - 1] ==> Interp(x, xp, fp) == fp[|fp| - 1]
    decreases |xp|
  {
    if x >= xp[|xp| - 1] && |xp| > 1 {
      assert x > xp[0];
      if x <= xp[1] {
        assert |xp| == 2 && x == xp[1];
        LerpAtEnd(fp[0], fp[1], xp[1] - xp[0]);
      } else {
        TableTail(xp, fp);
        InterpFlatAbove(x, xp[1..], fp[1..]);
      }
    }
  }

  /** Sample the table at every time of `ts`. */
  function Resample(ts: seq<real>, xp: seq<real>, fp: seq<real>): (r: seq<real>)
    requires Table(xp, fp)
    ensures |r| == |ts|
    ensures forall k :: 0 <= k < |ts| ==> r[k] == Interp(ts[k], xp, fp)
  {
    seq(|ts|, k requires 0 <= k < |ts| => Interp(ts[k], xp, fp))
  }

  /** Resampling keeps every sample within the range of the source values. */
  lemma ResampleWithin(ts: seq<real>, xp: seq<real>, fp: seq<real>, lo: real, hi: real)
    requires Table(xp, fp) && Within(fp, lo, hi)
    ensures Within(Resample(ts, xp, fp), lo, hi)
  {
    var r := Resample(ts, xp, fp);
    forall k | 0 <= k < |ts|
      ensures lo <= r[k] <= hi
    {
      InterpWithin(ts[k], xp, fp, lo, hi);
    }
  }

  /** Where a target time coincides with a source breakpoint the source value is reproduced. */
  lemma ResampleAtKnots(ts: seq<real>, xp: seq<real>, fp: seq<real>)
    requires Table(xp, fp)
    ensures forall k, m :: 0 <= k < |ts| && 0 <= m < |xp| && ts[k] == xp[m] ==>
                           Resample(ts, xp, fp)[k] == fp[m]
  {
    forall k, m | 0 <= k < |ts| && 0 <= m < |xp| && ts[k] == xp[m]
      ensures Resample(ts, xp, fp)[k] == fp[m]
    {
      InterpAtKnot(xp, fp, m);
    }
  }
}

=== FILE: limits.dfy ===
/** Derivation of the acceleration bounds handed to the optimizer: the speed-dependent
    profile tables, lateral-load derating in turns, the forced slow-deceleration override
    and the final clipping that keeps the optimizer's starting acceleration feasible. */
module Limits {
  import opened Numeric
  import opened Interpolation

  /** Upper bound forced while the driver is distracted. */
  const AwarenessDecel: real := -0.2
  const ACruiseMaxVals: seq<real> := [1.6, 1.2, 0.8, 0.6]
  const ACruiseMaxBp: seq<real> := [0.0, 10.0, 25.0, 40.0]

  /** Speed-dependent bound on the combined (longitudinal and lateral) acceleration. */
  const ATotalMaxV: seq<real> := [1.7, 3.2]
  const ATotalMaxBp: seq<real> := [20.0, 40.0]

  const DpAccelEco: int := 0
  const DpAccelSport: int := 2

  const DpCruiseMinV: seq<real> := [-1.0, -1.0, -1.0, -1.0, -1.0, -1.0, -1.0, -1.0, -1.0, -1.0]
  const DpCruiseMinVEco: seq<real> := [-1.0, -1.0, -1.0, -1.0, -1.0, -1.0, -1.0, -1.0, -1.0, -1.0]
  const DpCruiseMinVSport: seq<real> := [-1.0, -1.0, -1.0, -1.0, -1.0, -1.0, -1.0, -1.0, -1.0, -1.0]
  const DpCruiseMinBp: seq<real> := [0.0, 0.07, 6.0, 8.0, 11.0, 15.0, 20.0, 25.0, 30.0, 55.0]

  const DpCruiseMaxV: seq<real> := [3.5, 1.7, 1.31, 0.95, 0.77, 0.67, 0.55, 0.47, 0.31, 0.13]
  const DpCruiseMaxVEco: seq<real> := [2.5, 1.3, 1.2, 0.7, 0.48, 0.35, 0.25, 0.15, 0.12, 0.06]
  const DpCruiseMaxVSport: seq<real> := [3.5, 3.5, 2.5, 1.5, 2.0, 2.0, 2.0, 1.5, 1.0, 0.5]
  const DpCruiseMaxBp: seq<real> := [0.0, 3.0, 6.0, 8.0, 11.0, 15.0, 20.0, 25.0, 30.0, 55.0]

  /** Margin by which the bounds must clear the current desired acceleration. */
  const ClipMargin: real := 0.05

  /** pi / 180; the exact value of the degree conversion plays no part in the proofs. */
  const DegToRad: real := 3.141592653589793 / 180.0

  datatype AccelLimits = AccelLimits(lo: real, hi: real)

  predicate Ordered(l: AccelLimits)
  {
    l.lo <= l.hi
  }

  /** The vehicle parameters the planner reads. */
  datatype CarParams = CarParams(steerRatio: real, wheelbase: real, openpilotLongitudinalControl: bool)

  /** A square root that is non-negative wherever it is defined. */
  ghost predicate NonNegativeRoot(sqrt: real -> real)
  {
    forall x :: 0.0 <= x ==> 0.0 <= sqrt(x)
  }

  lemma ProfileTables()
    ensures Table(DpCruiseMinBp, DpCruiseMinV) && Table(DpCruiseMinBp, DpCruiseMinVEco)
    ensures Table(DpCruiseMinBp, DpCruiseMinVSport)
    ensures Table(DpCruiseMaxBp, DpCruiseMaxV) && Table(DpCruiseMaxBp, DpCruiseMaxVEco)
    ensures Table(DpCruiseMaxBp, DpCruiseMaxVSport)
    ensures Within(DpCruiseMinV, -1.0, -1.0) && Within(DpCruiseMinVEco, -1.0, -1.0)
    ensures Within(DpCruiseMinVSport, -1.0, -1.0)
    ensures Within(DpCruiseMaxV, 0.13, 3.5) && Within(DpCruiseMaxVEco, 0.06, 2.5)
    ensures Within(DpCruiseMaxVSport, 0.5, 3.5)
    ensures Table(ACruiseMaxBp, ACruiseMaxVals) && Within(ACruiseMaxVals, 0.6, 1.6)
    ensures Table(ATotalMaxBp, ATotalMaxV) && Within(ATotalMaxV, 1.7, 3.2)
  {
  }

  /** The lower-bound table of a profile; unknown profiles select the normal table. */
  function MinTable(dpProfile: int): (t: seq<real>)
    ensures Table(DpCruiseMinBp, t) && Within(t, -1.0, -1.0)
  {
    ProfileTables();
    if dpProfile == DpAccelEco then DpCruiseMinVEco
    else if dpProfile == DpAccelSport then DpCruiseMinVSport
    else DpCruiseMinV
  }

  /** The upper-bound table of a profile; unknown profiles select the normal table. */
  function MaxTable(dpProfile: int): (t: seq<real>)
    ensures Table(DpCruiseMaxBp, t) && |t| == 10
    ensures dpProfile == DpAccelEco ==> Within(t, 0.06, 2.5) && t[0] == 2.5 && t[9] == 0.06
    ensures dpProfile == DpAccelSport ==> Within(t, 0.5, 3.5) && t[0] == 3.5 && t[9] == 0.5
    ensures dpProfile != DpAccelEco && dpProfile != DpAccelSport ==>
              Within(t, 0.13, 3.5) && t[0] == 3.5 && t[9] == 0.13
  {
    ProfileTables();
    if dpProfile == DpAccelEco then DpCruiseMaxVEco
    else if dpProfile == DpAccelSport then DpCruiseMaxVSport
    else DpCruiseMaxV
  }

  /** The profile's (minimum, maximum) cruise acceleration at speed `vEgo`. */
  function DpCalcCruiseAccelLimits(vEgo: real, dpProfile: int): (r: AccelLimits)
    ensures r.lo == -1.0
    ensures dpProfile == DpAccelEco ==> 0.06 <= r.hi <= 2.5
    ensures dpProfile == DpAccelSport ==> 0.5 <= r.hi <= 3.5
    ensures dpProfile != DpAccelEco && dpProfile != DpAccelSport ==> 0.13 <= r.hi <= 3.5
    ensures vEgo <= 0.0 ==> r.hi == (if dpProfile == DpAccelEco then 2.5 else 3.5)
    ensures vEgo >= 55.0 ==>
              r.hi == (if dpProfile == DpAccelEco then 0.06 else if dpProfile == DpAccelSport then 0.5 else 0.13)
    ensures Ordered(r)
  {
    var minV := MinTable(dpProfile);
    var maxV := MaxTable(dpProfile);
    InterpWithin(vEgo, DpCruiseMinBp, minV, -1.0, -1.0);
    var hiBound := if dpProfile == DpAccelEco then 2.5 else 3.5;
    var loBound := if dpProfile == DpAccelEco then 0.06 else if dpProfile == DpAccelSport then 0.5 else 0.13;
    InterpWithin(vEgo, DpCruiseMaxBp, maxV, loBound, hiBound);
    InterpFlatAbove(vEgo, DpCruiseMaxBp, maxV);
    AccelLimits(Interp(vEgo, DpCruiseMinBp, minV), Interp(vEgo, DpCruiseMaxBp, maxV))
  }

  /** The default maximum cruise acceleration at speed `vEgo`. */
  function GetMaxAccel(vEgo: real): (r: real)
    ensures 0.6 <= r <= 1.6
    ensures vEgo <= 0.0 ==> r == 1.6
    ensures vEgo >= 40.0 ==> r == 0.6
  {
    ProfileTables();
    InterpWithin(vEgo, ACruiseMaxBp, ACruiseMaxVals, 0.6, 1.6);
    InterpFlatAbove(vEgo, ACruiseMaxBp, ACruiseMaxVals);
    Interp(vEgo, ACruiseMaxBp, ACruiseMaxVals)
  }

  /** The combined acceleration budget at speed `vEgo`. */
  function TotalMaxAccel(vEgo: real): (r: real)
    ensures 1.7 <= r <= 3.2
    ensures vEgo <= 20.0 ==> r == 1.7
    ensures vEgo >= 40.0 ==> r == 3.2
  {
    ProfileTables();
    InterpWithin(vEgo, ATotalMaxBp, ATotalMaxV, 1.7, 3.2);
    InterpFlatAbove(vEgo, ATotalMaxBp, ATotalMaxV);
    Interp(vEgo, ATotalMaxBp, ATotalMaxV)
  }

  /** First-order estimate of the lateral acceleration from speed and steering angle. */
  function LateralAccel(vEgo: real, angleSteersDeg: real, car: CarParams): (r: real)
    requires car.steerRatio * car.wheelbase != 0.0
    ensures vEgo == 0.0 || angleSteersDeg == 0.0 ==> r == 0.0
    ensures r * (car.steerRatio * car.wheelbase) == vEgo * vEgo * angleSteersDeg * DegToRad
  {
    vEgo * vEgo * angleSteersDeg * DegToRad / (car.steerRatio * car.wheelbase)
  }

  /** Longitudinal headroom left by the lateral load: the root of the part of the squared
      combined budget that the squared lateral acceleration does not use, floored at zero. */
  function AllowedLongAccel(vEgo: real, angleSteersDeg: real, car: CarParams, sqrt: real -> real): (r: real)
    requires car.steerRatio * car.wheelbase != 0.0
    requires NonNegativeRoot(sqrt)
    ensures r >= 0.0
  {
    var aTotalMax := TotalMaxAccel(vEgo);
    var aY := LateralAccel(vEgo, angleSteersDeg, car);
    sqrt(Max(aTotalMax * aTotalMax - aY * aY, 0.0))
  }

  /** Caps the upper bound at the turn headroom; the lower bound is untouched. */
  function LimitAccelInTurns(vEgo: real, angleSteersDeg: real, target: AccelLimits, car: CarParams,
                             sqrt: real -> real): (r: AccelLimits)
    requires car.steerRatio * car.wheelbase != 0.0
    requires NonNegativeRoot(sqrt)
    ensures r.lo == target.lo
    ensures r.hi <= target.hi && r.hi <= AllowedLongAccel(vEgo, angleSteersDeg, car, sqrt)
    ensures r.hi == target.hi || r.hi == AllowedLongAccel(vEgo, angleSteersDeg, car, sqrt)
    ensures target.hi >= 0.0 ==> r.hi >= 0.0
  {
    AccelLimits(target.lo, Min(target.hi, AllowedLongAccel(vEgo, angleSteersDeg, car, sqrt)))
  }

  /** The two bound pairs of one cycle: the cruise limits used to clip the current
      acceleration on a reset, and the turn-derated limits handed on to the optimizer. */
  datatype LimitPair = LimitPair(cruise: AccelLimits, turns: AccelLimits)

  /** With profile control the bounds come from the profile tables and are derated in turns;
      without it both pairs are the optimizer's fixed range `[minAccel, maxAccel]`. */
  function BaseLimits(profileCtrl: bool, profile: int, vEgo: real, angleSteersDeg: real, car: CarParams,
                      sqrt: real -> real, minAccel: real, maxAccel: real): (r: LimitPair)
    requires car.steerRatio * car.wheelbase != 0.0
    requires NonNegativeRoot(sqrt)
    requires minAccel <= maxAccel
    ensures Ordered(r.cruise) && Ordered(r.turns)
    ensures !profileCtrl ==> r.cruise == AccelLimits(minAccel, maxAccel) && r.turns == r.cruise
    ensures profileCtrl ==> r.cruise.lo == -1.0 && r.cruise.hi > 0.0
    ensures profileCtrl ==> r.turns.lo == r.cruise.lo && 0.0 <= r.turns.hi <= r.cruise.hi
    ensures profileCtrl ==> r.cruise == DpCalcCruiseAccelLimits(vEgo, profile)
                            && r.turns == LimitAccelInTurns(vEgo, angleSteersDeg, r.cruise, car, sqrt)
  {
    if profileCtrl then
      var l := DpCalcCruiseAccelLimits(vEgo, profile);
      LimitPair(l, LimitAccelInTurns(vEgo, angleSteersDeg, l, car, sqrt))
    else
      LimitPair(AccelLimits(minAccel, maxAccel), AccelLimits(minAccel, maxAccel))
  }

  /** Forces a smooth deceleration: the upper bound is pulled down to the awareness
      deceleration and the lower bound below it. */
  function ForceSlowDecel(l: AccelLimits): (r: AccelLimits)
    ensures r.hi <= AwarenessDecel && Ordered(r)
    ensures r.hi <= l.hi && r.lo <= l.lo
    ensures r.hi == l.hi || r.hi == AwarenessDecel
    ensures r.lo == l.lo || r.lo == r.hi
    ensures l.hi <= AwarenessDecel && Ordered(l) ==> r == l
  {
    var hi := Min(l.hi, AwarenessDecel);
    AccelLimits(Min(l.lo, hi), hi)
  }

  /** Widens the bounds so that the optimizer, which starts from `aDesired`, is feasible:
      the lower bound is brought down to `aDesired + ClipMargin` and to the strongest
      advisory acceleration, the upper bound up to `aDesired - ClipMargin`. */
  function ClipToState(l: AccelLimits, aDesired: real, aMinSol: ExtReal): (r: AccelLimits)
    ensures r.lo <= aDesired + ClipMargin && AtMost(r.lo, aMinSol)
    ensures r.hi >= aDesired - ClipMargin
    ensures r.lo <= l.lo && r.hi >= l.hi
    ensures r.lo == l.lo || r.lo == aDesired + ClipMargin || aMinSol == Fin(r.lo)
    ensures r.hi == l.hi || r.hi == aDesired - ClipMargin
    ensures Ordered(l) ==> Ordered(r)
    ensures l.lo <= aDesired + ClipMargin && AtMost(l.lo, aMinSol) && l.hi >= aDesired - ClipMargin ==> r == l
  {
    AccelLimits(MinExt(Min(l.lo, aDesired + ClipMargin), aMinSol), Max(l.hi, aDesired - ClipMargin))
  }
}

=== FILE: mode_arbiter.dfy ===
/** The conditional end-to-end mode arbiter: a per-cycle transition that debounces the
    raw lead flag, keeps a stop-and-go window after pulling away from standstill, and
    picks between the ACC and blended optimizer modes, reporting whether the mode
    changed so that downstream smoothing state is reset. */
module ModeArbiter {

  /** Consecutive agreeing cycles before the raw lead flag is committed. */
  const LeadCount: nat := 50
  /** Distance within which a tracked lead counts as a raw lead. */
  const LeadDist: real := 50.0
  /** Length of the stop-and-go window in cycles. */
  const SngCount: nat := 250

  datatype Mode = Acc | Blended

  /** Everything the arbiter remembers between cycles. */
  datatype ModeState = ModeState(
    hasLead: bool,         // committed (debounced) lead
    leadLast: bool,        // last cycle's raw lead flag
    leadCount: nat,        // cycles the raw flag has agreed with the previous one
    modeLast: Mode,        // last cycle's mode
    sng: bool,             // stop-and-go window armed
    sngCount: nat,         // cycles spent in stop-and-go windows, never reset
    standstillLast: bool)  // last cycle's standstill flag

  const Initial: ModeState := ModeState(false, false, 0, Acc, false, 0, false)

  /** One cycle's inputs; `leadRelSpeed` is passed by the caller but plays no part. */
  datatype Inputs = Inputs(standstill: bool, withinSpeedCondition: bool, lead: bool, leadRelSpeed: real)

  datatype Step = Step(state: ModeState, mode: Mode, reset: bool)

  /** A standstill-to-moving transition: the event that arms the window. */
  predicate Arms(s: ModeState, i: Inputs)
  {
    s.standstillLast && !i.standstill
  }

  function ConditionalE2E(s: ModeState, i: Inputs): (r: Step)
    // lead debounce
    ensures r.state.leadCount == (if i.lead == s.leadLast then s.leadCount + 1 else 0)
    ensures r.state.hasLead != s.hasLead ==>
              i.lead == s.leadLast && r.state.leadCount >= LeadCount && r.state.hasLead == i.lead
    ensures i.lead == s.leadLast && r.state.leadCount >= LeadCount ==> r.state.hasLead == i.lead
    // stop-and-go window
    ensures s.sngCount <= r.state.sngCount <= s.sngCount + 1
    ensures r.state.sng && !s.sng ==> Arms(s, i)
    ensures (s.sng || Arms(s, i)) ==> r.state.sngCount == s.sngCount + 1
    ensures !(s.sng || Arms(s, i)) ==> r.state.sngCount == s.sngCount && !r.state.sng
    ensures !i.standstill && (s.sng || Arms(s, i)) ==> (r.state.sng <==> r.state.sngCount < SngCount)
    ensures i.standstill ==> !r.state.sng
    // mode priority
    ensures r.mode == Blended <==>
              i.standstill || r.state.sng || (i.withinSpeedCondition && !r.state.hasLead)
    // reset flag and history
    ensures r.reset <==> r.mode != s.modeLast
    ensures r.state.leadLast == i.lead && r.state.modeLast == r.mode && r.state.standstillLast == i.standstill
  {
    var flipped := i.lead != s.leadLast;
    var leadCount := if flipped then 0 else s.leadCount + 1;
    var hasLead := if !flipped && leadCount >= LeadCount then i.lead else s.hasLead;
    var armed := if Arms(s, i) then true else s.sng;
    var sngCount := if armed then s.sngCount + 1 else s.sngCount;
    var sngKept := if armed && sngCount >= SngCount then false else armed;
    var sng := if i.standstill then false else sngKept;
    var mode :=
      if i.standstill then Blended
      else if sng then Blended
      else if i.withinSpeedCondition && !hasLead then Blended
      else Acc;
    Step(ModeState(hasLead, i.lead, leadCount, mode, sng, sngCount, i.standstill), mode, mode != s.modeLast)
  }

  /** The state after feeding `ins` to the arbiter one cycle at a time. */
  function Run(s: ModeState, ins: seq<Inputs>): ModeState
    decreases |ins|
  {
    if |ins| == 0 then s else Run(ConditionalE2E(s, ins[0]).state, ins[1..])
  }

  /** Cycle `j` of `ins` sees a raw lead flag different from the cycle before it. */
  predicate Flips(last: bool, ins: seq<Inputs>, j: nat)
    requires j < |ins|
  {
    ins[j].lead != (if j == 0 then last else ins[j - 1].lead)
  }

  /** Some cycle among the `len` cycles starting at `start` flips. */
  ghost predicate FlipIn(last: bool, ins: seq<Inputs>, start: nat, len: nat)
  {
    exists j: nat :: start <= j < start + len && j < |ins| && Flips(last, ins, j)
  }

  /** Every window of `w` consecutive cycles contains a flip. */
  ghost predicate FlickersWithin(last: bool, ins: seq<Inputs>, w: nat)
  {
    forall i: nat :: i + w <= |ins| ==> FlipIn(last, ins, i, w)
  }

  lemma FlipsShift(last: bool, ins: seq<Inputs>, j: nat)
    requires |ins| >= 1 && j + 1 < |ins|
    ensures Flips(ins[0].lead, ins[1..], j) == Flips(last, ins, j + 1)
  {
  }

  lemma FlipInShift(last: bool, ins: seq<Inputs>, start: nat, len: nat)
    requires |ins| >= 1 && FlipIn(last, ins, start + 1, len)
    ensures FlipIn(ins[0].lead, ins[1..], start, len)
  {
    var j: nat :| start + 1 <= j < start + 1 + len && j < |ins| && Flips(last, ins, j);
    FlipsShift(last, ins, j - 1);
    assert Flips(ins[0].lead, ins[1..], j - 1);
  }

  lemma FlickersShift(last: bool, ins: seq<Inputs>, w: nat)
    requires |ins| >= 1 && w >= 1 && FlickersWithin(last, ins, w)
    ensures FlickersWithin(ins[0].lead, ins[1..], w)
  {
    forall i: nat | i + w <= |ins[1..]|
      ensures FlipIn(ins[0].lead, ins[1..], i, w)
    {
      assert FlipIn(last, ins, i + 1, w);
      FlipInShift(last, ins, i, w);
    }
  }

  /** The debounce invariant: while the next flip is due before the counter can reach the
      commit threshold, the committed lead does not change. */
  lemma {:induction false} FlickerKeepsLead(s: ModeState, ins: seq<Inputs>)
    requires s.leadCount < LeadCount
    requires |ins| < LeadCount - s.leadCount || FlipIn(s.leadLast, ins, 0, LeadCount - s.leadCount)
    requires FlickersWithin(s.leadLast, ins, LeadCount)
    ensures Run(s, ins).hasLead == s.hasLead
    decreases |ins|
  {
    if |ins| > 0 {
      var s' := ConditionalE2E(s, ins[0]).state;
      var rest := ins[1..];
      FlickersShift(s.leadLast, ins, LeadCount);
      if Flips(s.leadLast, ins, 0) {
        assert s'.leadCount == 0;
        if |rest| >= LeadCount {
          assert FlipIn(s.leadLast, ins, 1, LeadCount);
          FlipInShift(s.leadLast, ins, 0, LeadCount);
        }
      } else {
        if |ins| >= LeadCount - s.leadCount {
          var j: nat :| j < LeadCount - s.leadCount && j < |ins| && Flips(s.leadLast, ins, j);
          assert j >= 1;
          assert FlipIn(s.leadLast, ins, 1, LeadCount - s.leadCount - 1);
          FlipInShift(s.leadLast, ins, 0, LeadCount - s.leadCount - 1);
        }
        assert s'.leadCount == s.leadCount + 1 < LeadCount;
      }
      FlickerKeepsLead(s', rest);
    }
  }

  /** A raw lead flag that flips at least once in every 50 consecutive cycles never changes
      the committed lead, starting from a freshly reset counter. */
  lemma FlickerNeverCommits(s: ModeState, ins: seq<Inputs>)
    requires s.leadCount == 0
    requires FlickersWithin(s.leadLast, ins, LeadCount)
    ensures Run(s, ins).hasLead == s.hasLead
  {
    if |ins| >= LeadCount {
      assert FlipIn(s.leadLast, ins, 0, LeadCount);
    }
    FlickerKeepsLead(s, ins);
  }

  lemma {:induction false} SteadyLeadFrom(s: ModeState, ins: seq<Inputs>, b: bool)
    requires s.leadLast == b
    requires forall k :: 0 <= k < |ins| ==> ins[k].lead == b
    ensures Run(s, ins).leadCount == s.leadCount + |ins|
    ensures (s.hasLead == b || (|ins| >= 1 && s.leadCount + |ins| >= LeadCount)) ==> Run(s, ins).hasLead == b
    decreases |ins|
  {
    if |ins| > 0 {
      var s' := ConditionalE2E(s, ins[0]).state;
      assert forall k :: 0 <= k < |ins[1..]| ==> ins[1..][k] == ins[k + 1];
      SteadyLeadFrom(s', ins[1..], b);
    }
  }

  /** A raw lead flag held for 51 consecutive cycles is committed, whatever came before. */
  lemma SteadyLeadCommits(s: ModeState, ins: seq<Inputs>, b: bool)
    requires |ins| >= LeadCount + 1
    requires forall k :: 0 <= k < |ins| ==> ins[k].lead == b
    ensures Run(s, ins).hasLead == b
  {
    var s' := ConditionalE2E(s, ins[0]).state;
    assert forall k :: 0 <= k < |ins[1..]| ==> ins[1..][k] == ins[k + 1];
    SteadyLeadFrom(s', ins[1..], b);
  }

  /** Moving cycles with the set speed above the condition speed. */
  predicate Cruising(ins: seq<Inputs>)
  {
    forall k :: 0 <= k < |ins| ==> !ins[k].standstill && !ins[k].withinSpeedCondition
  }

  lemma CruisingTail(ins: seq<Inputs>)
    requires |ins| >= 1 && Cruising(ins)
    ensures Cruising(ins[1..])
  {
    assert forall k :: 0 <= k < |ins[1..]| ==> ins[1..][k] == ins[k + 1];
  }

  /** Once moving, an armed window stays armed exactly while its counter is below the limit,
      and a disarmed window stays disarmed. */
  lemma {:induction false} WindowWhileMoving(s: ModeState, ins: seq<Inputs>)
    requires !s.standstillLast
    requires s.sng ==> s.sngCount < SngCount
    requires Cruising(ins)
    ensures Run(s, ins).sng <==> s.sng && s.sngCount + |ins| < SngCount
    ensures |ins| >= 1 ==> (Run(s, ins).modeLast == Blended <==> Run(s, ins).sng)
    ensures !Run(s, ins).standstillLast
    ensures Run(s, ins).sngCount ==
              if !s.sng then s.sngCount
              else if s.sngCount + |ins| < SngCount then s.sngCount + |ins|
              else SngCount
    decreases |ins|
  {
    if |ins| > 0 {
      var s' := ConditionalE2E(s, ins[0]).state;
      CruisingTail(ins);
      WindowWhileMoving(s', ins[1..]);
      if |ins| == 1 {
        assert Run(s', ins[1..]) == s';
      }
    }
  }

  /** Pulling away from standstill and then cruising keeps the blended mode for as long as
      the never-reset counter, plus the cycles since the transition, stays below 250. */
  lemma StopAndGoWindow(s: ModeState, ins: seq<Inputs>)
    requires s.standstillLast
    requires |ins| >= 1 && Cruising(ins)
    ensures Run(s, ins).sng <==> s.sngCount + |ins| < SngCount
    ensures Run(s, ins).modeLast == (if s.sngCount + |ins| < SngCount then Blended else Acc)
  {
    var s' := ConditionalE2E(s, ins[0]).state;
    assert Arms(s, ins[0]);
    CruisingTail(ins);
    WindowWhileMoving(s', ins[1..]);
    if |ins| == 1 {
      assert Run(s', ins[1..]) == s';
    }
  }

  /** As written, the counter only grows. */
  lemma {:induction false} CounterNeverDecreases(s: ModeState, ins: seq<Inputs>)
    ensures Run(s, ins).sngCount >= s.sngCount
    decreases |ins|
  {
    if |ins| > 0 {
      CounterNeverDecreases(ConditionalE2E(s, ins[0]).state, ins[1..]);
    }
  }

  /** As written, a standstill cycle followed by 249 cruising cycles leaves the counter at
      249 or more, whatever the history before it. */
  lemma CounterSpentByFirstWindow(s: ModeState, stop: Inputs, a: seq<Inputs>)
    requires stop.standstill
    requires |a| >= SngCount - 1 && Cruising(a)
    ensures Run(ConditionalE2E(s, stop).state, a).sngCount >= SngCount - 1
  {
    var s0 := ConditionalE2E(s, stop).state;
    var s1 := ConditionalE2E(s0, a[0]).state;
    assert Arms(s0, a[0]) && s1.sngCount == s0.sngCount + 1;
    CruisingTail(a);
    if s1.sng {
      WindowWhileMoving(s1, a[1..]);
    } else {
      CounterNeverDecreases(s1, a[1..]);
    }
  }

  /** As written, a window that has been used up once never opens again: after a first
      pull-away with 249 cruising cycles, a second stop and pull-away goes straight to ACC. */
  lemma SngWindowSpentAfterFirstUse(s: ModeState, stop: Inputs, a: seq<Inputs>, stop2: Inputs, b: seq<Inputs>)
    requires stop.standstill && stop2.standstill
    requires |a| >= SngCount - 1 && Cruising(a)
    requires |b| >= 1 && Cruising(b)
    ensures var t := Run(ConditionalE2E(Run(ConditionalE2E(s, stop).state, a), stop2).state, b);
            !t.sng && t.modeLast == Acc
  {
    var x := Run(ConditionalE2E(s, stop).state, a);
    CounterSpentByFirstWindow(s, stop, a);
    var y := ConditionalE2E(x, stop2).state;
    assert y.standstillLast && y.sngCount >= SngCount - 1;
    StopAndGoWindow(y, b);
  }

  /** The evidently intended transition: where the window closes and at standstill the
      counter is what gets cleared, instead of clearing the already-cleared window flag
      a second time. Only the counter differs from the transition as written. */
  function ConditionalE2EIntended(s: ModeState, i: Inputs): (r: Step)
    ensures i.standstill ==> r.state.sngCount == 0
    ensures !i.standstill && (s.sng || Arms(s, i)) ==>
              r.state.sngCount == (if s.sngCount + 1 >= SngCount then 0 else s.sngCount + 1)
    ensures !i.standstill && !(s.sng || Arms(s, i)) ==> r.state.sngCount == s.sngCount
    ensures s.sngCount < SngCount ==> r.state.sngCount < SngCount
    ensures r.state.(sngCount := 0) == ConditionalE2E(s, i).state.(sngCount := 0)
    ensures r.mode == ConditionalE2E(s, i).mode && r.reset == ConditionalE2E(s, i).reset
  {
    var asWritten := ConditionalE2E(s, i);
    var armed := s.sng || Arms(s, i);
    var closes := armed && s.sngCount + 1 >= SngCount;
    var sngCount := if i.standstill || closes then 0 else asWritten.state.sngCount;
    asWritten.(state := asWritten.state.(sngCount := sngCount))
  }

  function RunIntended(s: ModeState, ins: seq<Inputs>): ModeState
    decreases |ins|
  {
    if |ins| == 0 then s else RunIntended(ConditionalE2EIntended(s, ins[0]).state, ins[1..])
  }

  /** With the counter cleared when the window closes, an armed window again stays armed
      exactly while its counter is below the limit. */
  lemma {:induction false} IntendedWindowWhileMoving(s: ModeState, ins: seq<Inputs>)
    requires !s.standstillLast
    requires s.sng ==> s.sngCount < SngCount
    requires Cruising(ins)
    ensures RunIntended(s, ins).sng <==> s.sng && s.sngCount + |ins| < SngCount
    ensures |ins| >= 1 ==> (RunIntended(s, ins).modeLast == Blended <==> RunIntended(s, ins).sng)
    decreases |ins|
  {
    if |ins| > 0 {
      var s' := ConditionalE2EIntended(s, ins[0]).state;
      assert !s'.standstillLast && (s'.sng ==> s'.sngCount == s.sngCount + 1 < SngCount);
      CruisingTail(ins);
      IntendedWindowWhileMoving(s', ins[1..]);
      if |ins| == 1 {
        assert RunIntended(s', ins[1..]) == s';
      }
    }
  }

  /** With the intended transition, a standstill cycle followed by cruising keeps the
      blended mode for exactly 249 cruising cycles, whatever the history before it. */
  lemma IntendedStopAndGoWindow(s: ModeState, stop: Inputs, ins: seq<Inputs>)
    requires stop.standstill
    requires |ins| >= 1 && Cruising(ins)
    ensures RunIntended(ConditionalE2EIntended(s, stop).state, ins).sng <==> |ins| < SngCount
    ensures RunIntended(ConditionalE2EIntended(s, stop).state, ins).modeLast
            == (if |ins| < SngCount then Blended else Acc)
  {
    var s0 := ConditionalE2EIntended(s, stop).state;
    assert s0.standstillLast && s0.sngCount == 0 && !s0.sng;
    var s' := ConditionalE2EIntended(s0, ins[0]).state;
    assert Arms(s0, ins[0]);
    assert !s'.standstillLast && s'.sng && s'.sngCount == 1;
    CruisingTail(ins);
    IntendedWindowWhileMoving(s', ins[1..]);
    if |ins| == 1 {
      assert RunIntended(s', ins[1..]) == s';
    }
  }
}

=== FILE: numeric.dfy ===
/** Small numeric vocabulary shared by the planner model: binary min/max, clipping,
    the least and greatest element of a sequence, and reals extended with +infinity
    (the planner's "unconstrained" acceleration target). All arithmetic is exact. */
module Numeric {

  function Min(a: real, b: real): (r: real)
    ensures r <= a && r <= b
    ensures r == a || r == b
  {
    if a <= b then a else b
  }

  function Max(a: real, b: real): (r: real)
    ensures r >= a && r >= b
    ensures r == a || r == b
  {
    if a >= b then a else b
  }

  /** Clip `x` into `[lo, hi]` as `max(lo, min(hi, x))`: on an empty interval the lower
      bound wins. */
  function Clip(x: real, lo: real, hi: real): (r: real)
    ensures lo <= hi ==> lo <= r <= hi
    ensures lo <= x <= hi ==> r == x
    ensures lo > hi ==> r == lo
    ensures x < lo ==> r == lo
    ensures lo <= hi && hi < x ==> r == hi
    ensures r == x || r == lo || r == hi
  {
    Max(lo, Min(hi, x))
  }

  /** Every element of `s` lies in `[lo, hi]`. */
  predicate Within(s: seq<real>, lo: real, hi: real)
  {
    forall k :: 0 <= k < |s| ==> lo <= s[k] <= hi
  }

  /** The least element of a non-empty sequence. */
  function Lowest(s: seq<real>): (r: real)
    requires |s| >= 1
    ensures forall k :: 0 <= k < |s| ==> r <= s[k]
    ensures exists k :: 0 <= k < |s| && s[k] == r
  {
    if |s| == 1 then s[0]
    else
      var m := Lowest(s[1..]);
      assert forall k :: 1 <= k < |s| ==> s[k] == s[1..][k - 1];
      if s[0] <= m then s[0] else m
  }

  /** The greatest element of a non-empty sequence. */
  function Highest(s: seq<real>): (r: real)
    requires |s| >= 1
    ensures forall k :: 0 <= k < |s| ==> s[k] <= r
    ensures exists k :: 0 <= k < |s| && s[k] == r
  {
    if |s| == 1 then s[0]
    else
      var m := Highest(s[1..]);
      assert forall k :: 1 <= k < |s| ==> s[k] == s[1..][k - 1];
      if s[0] >= m then s[0] else m
  }

  /** A real number or +infinity. */
  datatype ExtReal = Fin(value: real) | PosInf

  /** `a <= b` for a finite `a`. */
  predicate AtMost(a: real, b: ExtReal)
  {
    b.PosInf? || a <= b.value
  }

  /** The minimum of a finite and an extended real; +infinity never wins. */
  function MinExt(a: real, b: ExtReal): (r: real)
    ensures r <= a && AtMost(r, b)
    ensures r == a || b == Fin(r)
    ensures b.PosInf? ==> r == a
  {
    match b
    case PosInf => a
    case Fin(v) => Min(a, v)
  }
}

=== FILE: planner.dfy ===
/** One cycle of the longitudinal planner, split at the call into the optimizer:
    `Prepare` updates the mode, the smoothing state and the acceleration bounds and builds
    the optimizer's request; `Conclude` takes the optimizer's solution, resamples it onto
    the output grid, raises the collision warning and advances the warm start. */
module Planner {
  import opened Numeric
  import opened Interpolation
  import opened ModeArbiter
  import opened Limits
  import opened SpeedArbiter

  const KphToMs: real := 1.0 / 3.6
  /** The configuration store is read on every 50th cycle of the non-conditional path. */
  const ParamReadPeriod: nat := 50
  /** Sample count of the model's position, velocity and acceleration arrays. */
  const ModelSamples: nat := 33
  /** Crash-counter value above which the collision warning is raised. */
  const FcwCrashCount: int := 2

  /** Optimizer constants, supplied by the caller. */
  datatype Tuning = Tuning(minAccel: real, maxAccel: real, tFollow: real, vCruiseMaxKph: real)

  /** The model's time grid, the optimizer's time grid, the output length and the cycle period. */
  datatype Grids = Grids(tIdxs: seq<real>, tIdxsMpc: seq<real>, controlN: nat, dtMdl: real)

  predicate ValidGrids(g: Grids)
  {
    && |g.tIdxs| == ModelSamples && StrictlyIncreasing(g.tIdxs)
    && |g.tIdxsMpc| >= 2 && StrictlyIncreasing(g.tIdxsMpc)
    && 1 <= g.controlN <= |g.tIdxs|
  }

  /** Behaviour from outside the planner's file: the square root used in turn derating and
      the first-order low-pass step `(state, input) -> new state`. */
  datatype Collaborators = Collaborators(sqrt: real -> real, filterUpdate: (real, real) -> real)

  datatype Config = Config(car: CarParams, tuning: Tuning, grids: Grids, col: Collaborators)

  ghost predicate ValidConfig(cfg: Config)
  {
    && cfg.car.steerRatio * cfg.car.wheelbase != 0.0
    && cfg.tuning.minAccel <= cfg.tuning.maxAccel
    && ValidGrids(cfg.grids)
    && NonNegativeRoot(cfg.col.sqrt)
  }

  // ---------------------------------------------------------------------------
  // Configuration-store schedule and mode rule

  /** Mode read from the configuration store: blended iff experimental mode is on and the
      planner controls the longitudinal axis. */
  function ReadParamMode(experimental: bool, openpilotLong: bool): (m: Mode)
    ensures m == Blended <==> experimental && openpilotLong
  {
    if experimental && openpilotLong then Blended else Acc
  }

  predicate ParamReadDue(counter: nat, read: bool)
  {
    read && counter % ParamReadPeriod == 0
  }

  /** Reads due over `n` consecutive non-conditional cycles starting at `counter`. */
  function ReadsOver(counter: nat, n: nat): nat
    decreases n
  {
    if n == 0 then 0
    else (if ParamReadDue(counter, true) then 1 else 0) + ReadsOver(counter + 1, n - 1)
  }

  lemma {:induction false} ReadsOverSplit(c: nat, a: nat, b: nat)
    ensures ReadsOver(c, a + b) == ReadsOver(c, a) + ReadsOver(c + a, b)
    decreases a
  {
    if a > 0 {
      ReadsOverSplit(c + 1, a - 1, b);
    }
  }

  lemma {:induction false} NoReadsBeforeBoundary(c: nat, k: nat)
    requires 1 <= c % ParamReadPeriod && c % ParamReadPeriod + k <= ParamReadPeriod
    ensures ReadsOver(c, k) == 0
    decreases k
  {
    if k > 1 {
      assert (c + 1) % ParamReadPeriod == c % ParamReadPeriod + 1;
      NoReadsBeforeBoundary(c + 1, k - 1);
    }
  }

  /** Every 50 consecutive cycles contain exactly one read, so a configured mode is picked up
      at most 50 cycles late. */
  lemma OneReadPerPeriod(c: nat)
    ensures ReadsOver(c, ParamReadPeriod) == 1
  {
    var r := c % ParamReadPeriod;
    var q := c / ParamReadPeriod;
    assert c == ParamReadPeriod * q + r;
    if r == 0 {
      ReadsOverSplit(c, 1, ParamReadPeriod - 1);
      assert ReadsOver(c, 1) == 1;
      NextAfterBoundary(c);
      NoReadsBeforeBoundary(c + 1, ParamReadPeriod - 1);
    } else {
      var a := ParamReadPeriod - r;
      ReadsOverSplit(c, a, r);
      NoReadsBeforeBoundary(c, a);
      var b := c + a;
      assert b == ParamReadPeriod * (q + 1);
      MultipleIsBoundary(q + 1);
      ReadsOverSplit(b, 1, r - 1);
      assert ReadsOver(b, 1) == 1;
      NextAfterBoundary(b);
      NoReadsBeforeBoundary(b + 1, r - 1);
    }
  }

  lemma MultipleIsBoundary(q: nat)
    ensures (ParamReadPeriod * q) % ParamReadPeriod == 0
  {
  }

  lemma NextAfterBoundary(b: nat)
    requires b % ParamReadPeriod == 0
    ensures (b + 1) % ParamReadPeriod == 1
  {
  }

  // ---------------------------------------------------------------------------
  // Model reference trajectories and following distance

  datatype ModelRefs = ModelRefs(x: seq<real>, v: seq<real>, a: seq<real>, j: seq<real>)

  function Zeros(n: nat): (z: seq<real>)
    ensures |z| == n && forall k :: 0 <= k < n ==> z[k] == 0.0
  {
    seq(n, k => 0.0)
  }

  predicate WellFormedModel(posX: seq<real>, velX: seq<real>, accX: seq<real>)
  {
    |posX| == ModelSamples && |velX| == ModelSamples && |accX| == ModelSamples
  }

  /** The model's trajectories on the optimizer grid, corrected by the velocity bias; any
      array of the wrong length makes every reference zero instead of failing. */
  function ParseModel(posX: seq<real>, velX: seq<real>, accX: seq<real>, modelError: real, g: Grids): (r: ModelRefs)
    requires ValidGrids(g)
    ensures |r.x| == |g.tIdxsMpc| && |r.v| == |g.tIdxsMpc| && |r.a| == |g.tIdxsMpc| && |r.j| == |g.tIdxsMpc|
    ensures forall k :: 0 <= k < |r.j| ==> r.j[k] == 0.0
    ensures !WellFormedModel(posX, velX, accX) ==>
              forall k :: 0 <= k < |g.tIdxsMpc| ==> r.x[k] == 0.0 && r.v[k] == 0.0 && r.a[k] == 0.0
    ensures WellFormedModel(posX, velX, accX) ==>
              forall k :: 0 <= k < |g.tIdxsMpc| ==>
                && r.x[k] == Interp(g.tIdxsMpc[k], g.tIdxs, posX) - modelError * g.tIdxsMpc[k]
                && r.v[k] == Interp(g.tIdxsMpc[k], g.tIdxs, velX) - modelError
                && r.a[k] == Interp(g.tIdxsMpc[k], g.tIdxs, accX)
  {
    var n := |g.tIdxsMpc|;
    if WellFormedModel(posX, velX, accX) then
      var x := Resample(g.tIdxsMpc, g.tIdxs, posX);
      var v := Resample(g.tIdxsMpc, g.tIdxs, velX);
      var a := Resample(g.tIdxsMpc, g.tIdxs, accX);
      ModelRefs(seq(n, k requires 0 <= k < n => x[k] - modelError * g.tIdxsMpc[k]),
                seq(n, k requires 0 <= k < n => v[k] - modelError),
                a, Zeros(n))
    else
      ModelRefs(Zeros(n), Zeros(n), Zeros(n), Zeros(n))
  }

  /** Where an optimizer time is also a model time, the references are the model's own
      samples shifted by the bias. */
  lemma ParseModelAtSharedTimes(posX: seq<real>, velX: seq<real>, accX: seq<real>, modelError: real,
                                g: Grids, k: nat, m: nat)
    requires ValidGrids(g) && WellFormedModel(posX, velX, accX)
    requires k < |g.tIdxsMpc| && m < |g.tIdxs| && g.tIdxsMpc[k] == g.tIdxs[m]
    ensures var r := ParseModel(posX, velX, accX, modelError, g);
            && r.x[k] == posX[m] - modelError * g.tIdxs[m]
            && r.v[k] == velX[m] - modelError
            && r.a[k] == accX[m]
  {
    InterpAtKnot(g.tIdxs, posX, m);
    InterpAtKnot(g.tIdxs, velX, m);
    InterpAtKnot(g.tIdxs, accX, m);
  }

  const FollowV0: seq<real> := [0.0, 5.56, 11.11, 13.89, 19.4, 22.2, 25.0, 41.67]
  const FollowT0: seq<real> := [1.2, 1.3, 1.32, 1.32, 1.32, 1.32, 1.32, 1.35]
  const FollowV1: seq<real> := [0.0, 5.56, 11.11, 13.89, 19.4, 25.0, 41.67]
  const FollowT1: seq<real> := [1.2, 1.37, 1.45, 1.5, 1.5, 1.6, 1.8]
  const FollowV2: seq<real> := [0.0, 5.56, 11.11, 13.89, 25.0, 41.67]
  const FollowT2: seq<real> := [1.2, 1.47, 1.75, 1.95, 2.2, 2.4]

  lemma FollowTables()
    ensures Table(FollowV0, FollowT0) && Within(FollowT0, 1.2, 1.35)
    ensures Table(FollowV1, FollowT1) && Within(FollowT1, 1.2, 1.8)
    ensures Table(FollowV2, FollowT2) && Within(FollowT2, 1.2, 2.4)
  {
  }

  /** Desired following time: the selected profile's speed table in ACC mode with the
      following profile enabled, otherwise the optimizer's default. */
  function GetDf(vEgo: real, followingProfileCtrl: bool, followingProfile: int, mode: Mode, tFollow: real): (r: real)
    ensures !(followingProfileCtrl && mode == Acc) ==> r == tFollow
    ensures followingProfile !in {0, 1, 2} ==> r == tFollow
    ensures followingProfileCtrl && mode == Acc && followingProfile == 0 ==> 1.2 <= r <= 1.35
    ensures followingProfileCtrl && mode == Acc && followingProfile == 1 ==> 1.2 <= r <= 1.8
    ensures followingProfileCtrl && mode == Acc && followingProfile == 2 ==> 1.2 <= r <= 2.4
    ensures followingProfileCtrl && mode == Acc && followingProfile in {0, 1, 2} && vEgo <= 0.0 ==> r == 1.2
  {
    FollowTables();
    if followingProfileCtrl && mode == Acc then
      if followingProfile == 0 then
        InterpWithin(vEgo, FollowV0, FollowT0, 1.2, 1.35);
        Interp(vEgo, FollowV0, FollowT0)
      else if followingProfile == 1 then
        InterpWithin(vEgo, FollowV1, FollowT1, 1.2, 1.8);
        Interp(vEgo, FollowV1, FollowT1)
      else if followingProfile == 2 then
        InterpWithin(vEgo, FollowV2, FollowT2, 1.2, 2.4);
        Interp(vEgo, FollowV2, FollowT2)
      else tFollow
    else tFollow
  }

  // ---------------------------------------------------------------------------
  // Planner state and one cycle

  datatype PlannerState = PlannerState(
    mode: Mode,                 // the optimizer's cost mode
    arbiter: ModeState,
    paramReadCounter: nat,
    fcw: bool,
    aDesired: real,
    vFilter: real,              // state of the velocity low-pass filter
    vModelError: real,
    vTrajectory: seq<real>,
    aTrajectory: seq<real>,
    jTrajectory: seq<real>,
    cruiseSource: Source)

  /** A fresh planner: the mode comes from the configuration store, the arbiter starts in
      ACC, trajectories are zero. */
  function Init(initV: real, initA: real, experimental: bool, car: CarParams, g: Grids): (st: PlannerState)
    ensures st.mode == Blended <==> experimental && car.openpilotLongitudinalControl
    ensures st.arbiter == ModeArbiter.Initial
    ensures st.arbiter.modeLast == Acc && !st.arbiter.hasLead && st.arbiter.leadCount == 0
    ensures st.aDesired == initA && st.vFilter == initV && st.vModelError == 0.0 && !st.fcw
    ensures st.vTrajectory == Zeros(g.controlN) && st.aTrajectory == Zeros(g.controlN)
            && st.jTrajectory == Zeros(g.controlN)
    ensures st.cruiseSource == Cruise && st.paramReadCounter == 0
  {
    PlannerState(ReadParamMode(experimental, car.openpilotLongitudinalControl), ModeArbiter.Initial, 0, false,
                 initA, initV, 0.0, Zeros(g.controlN), Zeros(g.controlN), Zeros(g.controlN), Cruise)
  }

  /** What the planner reads in one cycle. */
  datatype Observation = Observation(
    // configuration
    accelProfileCtrl: bool, accelProfile: int,
    followingProfileCtrl: bool, followingProfile: int,
    e2eConditional: bool, e2eConditionalAtSpeed: real,
    experimentalMode: bool,
    // lead
    leadStatus: bool, leadDRel: real, leadVRel: real,
    // vehicle and cruise state
    vEgo: real, aEgo: real, standstill: bool, steeringAngleDeg: real,
    vCruiseKph: real, longControlOff: bool, enabled: bool, forceDecel: bool,
    // model
    modelPosX: seq<real>, modelVelX: seq<real>, modelAccX: seq<real>, temporalTrans: seq<real>,
    // advisory controllers after this cycle's update
    turn: Advisory, limit: Advisory, turnLimit: Advisory)

  /** The arbiter's inputs: a raw lead is a tracked lead within 50 distance units. */
  function E2EInputs(obs: Observation): (r: Inputs)
    ensures r.lead <==> obs.leadStatus && obs.leadDRel <= LeadDist
    ensures r.withinSpeedCondition <==> obs.vCruiseKph <= obs.e2eConditionalAtSpeed
    ensures r.standstill == obs.standstill && r.leadRelSpeed == obs.leadVRel + obs.vEgo
  {
    Inputs(obs.standstill, obs.vCruiseKph <= obs.e2eConditionalAtSpeed,
           obs.leadStatus && obs.leadDRel <= LeadDist, obs.leadVRel + obs.vEgo)
  }

  datatype ModeUpdate = ModeUpdate(mode: Mode, arbiter: ModeState, counter: nat, dpReset: bool)

  /** The conditional arbiter decides the mode when enabled; otherwise the configuration
      store is consulted on its decimated schedule and the mode is kept in between. */
  function UpdateMode(st: PlannerState, obs: Observation, read: bool, car: CarParams): (r: ModeUpdate)
    ensures obs.e2eConditional ==>
              && r.arbiter == ConditionalE2E(st.arbiter, E2EInputs(obs)).state
              && r.mode == r.arbiter.modeLast
              && (r.dpReset <==> r.mode != st.arbiter.modeLast)
              && r.counter == st.paramReadCounter
    ensures !obs.e2eConditional ==>
              && r.arbiter == st.arbiter && !r.dpReset && r.counter == st.paramReadCounter + 1
              && (ParamReadDue(st.paramReadCounter, read) ==>
                    (r.mode == Blended <==> obs.experimentalMode && car.openpilotLongitudinalControl))
              && (!ParamReadDue(st.paramReadCounter, read) ==> r.mode == st.mode)
  {
    if obs.e2eConditional then
      var step := ConditionalE2E(st.arbiter, E2EInputs(obs));
      ModeUpdate(step.mode, step.state, st.paramReadCounter, step.reset)
    else
      var mode := if ParamReadDue(st.paramReadCounter, read)
                  then ReadParamMode(obs.experimentalMode, car.openpilotLongitudinalControl)
                  else st.mode;
      ModeUpdate(mode, st.arbiter, st.paramReadCounter + 1, false)
  }

  /** The mode update with the evidently intended stop-and-go counter (see
      `ModeArbiter.ConditionalE2EIntended`); on a single cycle it yields the same mode and
      reset as the update as written. */
  function UpdateModeIntended(st: PlannerState, obs: Observation, read: bool, car: CarParams): (r: ModeUpdate)
    ensures obs.e2eConditional ==>
              && r.arbiter == ConditionalE2EIntended(st.arbiter, E2EInputs(obs)).state
              && r.mode == r.arbiter.modeLast
              && r.counter == st.paramReadCounter
    ensures !obs.e2eConditional ==> r == UpdateMode(st, obs, read, car)
    ensures r.mode == UpdateMode(st, obs, read, car).mode && r.dpReset == UpdateMode(st, obs, read, car).dpReset
  {
    if obs.e2eConditional then
      var step := ConditionalE2EIntended(st.arbiter, E2EInputs(obs));
      ModeUpdate(step.mode, step.state, st.paramReadCounter, step.reset)
    else
      UpdateMode(st, obs, read, car)
  }

  /** The planner's mode-related fields after the mode update of each observation in turn. */
  function ModeRun(st: PlannerState, obs: seq<Observation>, read: bool, car: CarParams): PlannerState
    decreases |obs|
  {
    if |obs| == 0 then st
    else
      var m := UpdateMode(st, obs[0], read, car);
      ModeRun(st.(mode := m.mode, arbiter := m.arbiter, paramReadCounter := m.counter), obs[1..], read, car)
  }

  /** Non-conditional cycles that all see the same persisted experimental flag. */
  predicate SteadySetting(obs: seq<Observation>, experimental: bool)
  {
    forall k :: 0 <= k < |obs| ==> !obs[k].e2eConditional && obs[k].experimentalMode == experimental
  }

  lemma SteadyTail(obs: seq<Observation>, experimental: bool)
    requires |obs| >= 1 && SteadySetting(obs, experimental)
    ensures SteadySetting(obs[1..], experimental)
  {
    assert forall k :: 0 <= k < |obs[1..]| ==> obs[1..][k] == obs[k + 1];
  }

  /** Cycles until the next read is due. */
  function ToNextRead(c: nat): nat
  {
    if c % ParamReadPeriod == 0 then 0 else ParamReadPeriod - c % ParamReadPeriod
  }

  lemma ToNextReadStep(c: nat)
    requires c % ParamReadPeriod != 0
    ensures ToNextRead(c + 1) == ToNextRead(c) - 1
  {
    if c % ParamReadPeriod < ParamReadPeriod - 1 {
      assert (c + 1) % ParamReadPeriod == c % ParamReadPeriod + 1;
    } else {
      assert c + 1 == ParamReadPeriod * (c / ParamReadPeriod + 1);
      MultipleIsBoundary(c / ParamReadPeriod + 1);
    }
  }

  /** Once the mode agrees with a steady setting, further non-conditional cycles keep it,
      read or not; the read counter advances once per cycle and the arbiter is untouched. */
  lemma {:induction false} SettingKept(st: PlannerState, obs: seq<Observation>, read: bool, car: CarParams, e: bool)
    requires SteadySetting(obs, e)
    requires st.mode == ReadParamMode(e, car.openpilotLongitudinalControl)
    ensures ModeRun(st, obs, read, car).mode == st.mode
    ensures ModeRun(st, obs, read, car).paramReadCounter == st.paramReadCounter + |obs|
    ensures ModeRun(st, obs, read, car).arbiter == st.arbiter
    decreases |obs|
  {
    if |obs| > 0 {
      var m := UpdateMode(st, obs[0], read, car);
      SteadyTail(obs, e);
      SettingKept(st.(mode := m.mode, arbiter := m.arbiter, paramReadCounter := m.counter), obs[1..], read, car, e);
    }
  }

  /** With reading allowed, a steady setting is picked up on the next cycle whose counter is
      a multiple of 50, and kept from then on. */
  lemma {:induction false} SettingPickedUp(st: PlannerState, obs: seq<Observation>, car: CarParams, e: bool)
    requires SteadySetting(obs, e)
    requires |obs| > ToNextRead(st.paramReadCounter)
    ensures ModeRun(st, obs, true, car).mode == ReadParamMode(e, car.openpilotLongitudinalControl)
    ensures ModeRun(st, obs, true, car).paramReadCounter == st.paramReadCounter + |obs|
    decreases |obs|
  {
    var m := UpdateMode(st, obs[0], true, car);
    var st' := st.(mode := m.mode, arbiter := m.arbiter, paramReadCounter := m.counter);
    SteadyTail(obs, e);
    if st.paramReadCounter % ParamReadPeriod == 0 {
      SettingKept(st', obs[1..], true, car, e);
    } else {
      ToNextReadStep(st.paramReadCounter);
      SettingPickedUp(st', obs[1..], car, e);
    }
  }

  /** The configured mode is in force after at most 50 non-conditional cycles, whatever the
      counter and mode were: the staleness the decimated read allows. */
  lemma SettingInForceWithinPeriod(st: PlannerState, obs: seq<Observation>, car: CarParams, e: bool)
    requires SteadySetting(obs, e) && |obs| >= ParamReadPeriod
    ensures ModeRun(st, obs, true, car).mode == ReadParamMode(e, car.openpilotLongitudinalControl)
  {
    SettingPickedUp(st, obs, car, e);
  }

  /** Smoothing state must be re-seeded: the planner is not engaged, or the driver controls
      the speed. */
  predicate ResetState(car: CarParams, obs: Observation)
  {
    if car.openpilotLongitudinalControl then obs.longControlOff else !obs.enabled
  }

  /** Everything handed to the optimizer. */
  datatype SolverRequest = SolverRequest(
    aMin: real, aMax: real,          // acceleration bounds
    vStart: real, aStart: real,      // current state the optimizer starts from
    vCruiseTarget: real,
    refs: ModelRefs,
    prevAccelConstraint: bool,
    desiredTf: real,
    mode: Mode)

  datatype Prepared = Prepared(state: PlannerState, req: SolverRequest)

  /** Cruise set speed in metres per second, capped at the maximum set speed. */
  function CruiseSpeed(vCruiseKph: real, tuning: Tuning): (v: real)
    ensures v <= vCruiseKph * KphToMs && v <= tuning.vCruiseMaxKph * KphToMs
    ensures v == vCruiseKph * KphToMs || v == tuning.vCruiseMaxKph * KphToMs
  {
    Min(vCruiseKph, tuning.vCruiseMaxKph) * KphToMs
  }

  /** The speed the filter starts from and the desired acceleration of a cycle. */
  datatype Seeded = Seeded(v: real, a: real)

  /** On a reset the filter is re-seeded with the measured speed and the desired
      acceleration with the measured one, clipped into the cruise limits; otherwise both
      carry over. */
  function Seed(resetting: bool, vEgo: real, aEgo: real, cruise: AccelLimits, vPrev: real, aPrev: real): (r: Seeded)
    ensures resetting ==> r.v == vEgo && r.a == Clip(aEgo, cruise.lo, cruise.hi)
    ensures !resetting ==> r == Seeded(vPrev, aPrev)
  {
    if resetting then Seeded(vEgo, Clip(aEgo, cruise.lo, cruise.hi)) else Seeded(vPrev, aPrev)
  }

  /** The optimizer's bounds for this cycle: the turn-derated limits, pulled down under a
      forced deceleration, then widened around the starting acceleration. */
  function CycleBounds(turns: AccelLimits, forceDecel: bool, aDesired: real, aMinSol: ExtReal): (r: AccelLimits)
    requires Ordered(turns)
    ensures Ordered(r)
    ensures r.lo <= aDesired + ClipMargin && r.hi >= aDesired - ClipMargin && AtMost(r.lo, aMinSol)
    ensures r.lo <= turns.lo
    ensures forceDecel ==> r.hi <= Max(AwarenessDecel, aDesired - ClipMargin) && r.hi >= Min(turns.hi, AwarenessDecel)
    ensures !forceDecel ==> r.hi >= turns.hi
    ensures !forceDecel ==> r.hi <= Max(turns.hi, aDesired - ClipMargin)
    ensures !forceDecel ==> r.lo == turns.lo || r.lo == aDesired + ClipMargin || aMinSol == Fin(r.lo)
    ensures forceDecel ==> (r.lo == Min(turns.lo, Min(turns.hi, AwarenessDecel)) || r.lo == aDesired + ClipMargin
                            || aMinSol == Fin(r.lo))
    ensures (!forceDecel && turns.lo <= aDesired + ClipMargin && AtMost(turns.lo, aMinSol)
             && turns.hi >= aDesired - ClipMargin) ==> r == turns
  {
    var l := if forceDecel then ForceSlowDecel(turns) else turns;
    ClipToState(l, aDesired, aMinSol)
  }

  /** Turn-derated and cruise limits of this cycle. */
  function CycleLimits(obs: Observation, cfg: Config): (r: LimitPair)
    requires ValidConfig(cfg)
    ensures Ordered(r.cruise) && Ordered(r.turns)
  {
    BaseLimits(obs.accelProfileCtrl, obs.accelProfile, obs.vEgo, obs.steeringAngleDeg, cfg.car,
               cfg.col.sqrt, cfg.tuning.minAccel, cfg.tuning.maxAccel)
  }

  /** The speed arbitration of this cycle. */
  function CycleSolution(obs: Observation, cfg: Config): Candidate
  {
    CruiseSolutions(CruiseSpeed(obs.vCruiseKph, cfg.tuning), obs.turn, obs.limit, obs.turnLimit)
  }

  /** The state updates of a cycle before the optimizer runs: mode, re-seeding on a reset,
      the low-pass filter floored at zero, the model bias and the chosen source. */
  function PrepareState(st: PlannerState, obs: Observation, read: bool, cfg: Config): (r: PlannerState)
    requires ValidConfig(cfg)
    ensures var m := UpdateMode(st, obs, read, cfg.car);
            var resetting := ResetState(cfg.car, obs) || m.dpReset;
            && (resetting ==> r.aDesired == Clip(obs.aEgo, CycleLimits(obs, cfg).cruise.lo, CycleLimits(obs, cfg).cruise.hi))
            && (!resetting ==> r.aDesired == st.aDesired)
            && r.mode == m.mode && r.arbiter == m.arbiter && r.paramReadCounter == m.counter
    ensures var resetting := ResetState(cfg.car, obs) || UpdateMode(st, obs, read, cfg.car).dpReset;
            && r.vFilter >= 0.0
            && (resetting ==> r.vFilter == Max(0.0, cfg.col.filterUpdate(obs.vEgo, obs.vEgo)))
            && (!resetting ==> r.vFilter == Max(0.0, cfg.col.filterUpdate(st.vFilter, obs.vEgo)))
    ensures |obs.temporalTrans| > 0 ==> r.vModelError == obs.temporalTrans[0] - obs.vEgo
    ensures |obs.temporalTrans| == 0 ==> r.vModelError == st.vModelError
    ensures r.cruiseSource == CycleSolution(obs, cfg).source
    ensures r.fcw == st.fcw && r.vTrajectory == st.vTrajectory && r.aTrajectory == st.aTrajectory
  {
    var m := UpdateMode(st, obs, read, cfg.car);
    var limits := CycleLimits(obs, cfg);
    var seed := Seed(ResetState(cfg.car, obs) || m.dpReset, obs.vEgo, obs.aEgo, limits.cruise,
                     st.vFilter, st.aDesired);
    var vModelError := if |obs.temporalTrans| > 0 then obs.temporalTrans[0] - obs.vEgo else st.vModelError;
    st.(mode := m.mode, arbiter := m.arbiter, paramReadCounter := m.counter,
        aDesired := seed.a, vFilter := Max(0.0, cfg.col.filterUpdate(seed.v, obs.vEgo)),
        vModelError := vModelError, cruiseSource := CycleSolution(obs, cfg).source)
  }

  /** The optimizer's request, built from the updated state. */
  function BuildRequest(s: PlannerState, obs: Observation, cfg: Config): (q: SolverRequest)
    requires ValidConfig(cfg)
    ensures q.aMin <= q.aMax
    ensures q.aMin <= s.aDesired + ClipMargin && q.aMax >= s.aDesired - ClipMargin
    ensures AtMost(q.aMin, CycleSolution(obs, cfg).accel)
    ensures obs.forceDecel ==> q.aMax <= Max(AwarenessDecel, s.aDesired - ClipMargin)
    ensures !obs.accelProfileCtrl ==>
              q.aMin <= cfg.tuning.minAccel && q.aMax >= Min(cfg.tuning.maxAccel, AwarenessDecel)
    ensures q.aStart == s.aDesired && q.vStart == s.vFilter && q.mode == s.mode
    ensures q.vCruiseTarget <= CruiseSpeed(obs.vCruiseKph, cfg.tuning)
    ensures q.vCruiseTarget == CycleSolution(obs, cfg).velocity
    ensures AccelLimits(q.aMin, q.aMax)
            == CycleBounds(CycleLimits(obs, cfg).turns, obs.forceDecel, s.aDesired, CycleSolution(obs, cfg).accel)
    ensures q.prevAccelConstraint <==> !ResetState(cfg.car, obs) && !obs.standstill
    ensures q.refs == ParseModel(obs.modelPosX, obs.modelVelX, obs.modelAccX, s.vModelError, cfg.grids)
    ensures q.desiredTf == GetDf(obs.vEgo, obs.followingProfileCtrl, obs.followingProfile, s.mode, cfg.tuning.tFollow)
  {
    var limits := CycleLimits(obs, cfg);
    var sol := CycleSolution(obs, cfg);
    var bounds := CycleBounds(limits.turns, obs.forceDecel, s.aDesired, sol.accel);
    SolverRequest(bounds.lo, bounds.hi, s.vFilter, s.aDesired, sol.velocity,
                  ParseModel(obs.modelPosX, obs.modelVelX, obs.modelAccX, s.vModelError, cfg.grids),
                  !(ResetState(cfg.car, obs) || obs.standstill),
                  GetDf(obs.vEgo, obs.followingProfileCtrl, obs.followingProfile, s.mode, cfg.tuning.tFollow),
                  s.mode)
  }

  /** The part of a cycle before the optimizer runs: the bounds handed to the optimizer are
      ordered and bracket the acceleration it starts from, also after a reset. */
  function Prepare(st: PlannerState, obs: Observation, read: bool, cfg: Config): (r: Prepared)
    requires ValidConfig(cfg)
    ensures r.req.aMin <= r.req.aMax
    ensures r.req.aMin <= r.state.aDesired + ClipMargin && r.req.aMax >= r.state.aDesired - ClipMargin
    ensures r.req.aStart == r.state.aDesired && r.req.vStart == r.state.vFilter && r.state.vFilter >= 0.0
    ensures r.state.cruiseSource == Turn ==> r.req.aMin <= obs.turn.aTarget
    ensures r.state.cruiseSource == Limit ==> r.req.aMin <= obs.limit.aTarget
    ensures r.state.cruiseSource == TurnLimit ==> r.req.aMin <= obs.turnLimit.aTarget
    ensures obs.forceDecel ==> r.req.aMax <= Max(AwarenessDecel, r.state.aDesired - ClipMargin)
    ensures r.req.mode == r.state.mode
    ensures r.state == PrepareState(st, obs, read, cfg) && r.req == BuildRequest(r.state, obs, cfg)
  {
    var s := PrepareState(st, obs, read, cfg);
    Prepared(s, BuildRequest(s, obs, cfg))
  }

  /** What the optimizer returns. */
  datatype Solution = Solution(vSolution: seq<real>, aSolution: seq<real>, jSolution: seq<real>, crashCnt: int)

  predicate SolutionFits(sol: Solution, g: Grids)
  {
    |sol.vSolution| == |g.tIdxsMpc| && |sol.aSolution| == |g.tIdxsMpc| && |sol.jSolution| == |g.tIdxsMpc| - 1
  }

  lemma OutputGrids(g: Grids)
    requires ValidGrids(g)
    ensures StrictlyIncreasing(g.tIdxs[..g.controlN])
    ensures StrictlyIncreasing(g.tIdxsMpc[..|g.tIdxsMpc| - 1])
  {
  }

  /** Output grid: the first `controlN` model times. */
  function OutputTimes(g: Grids): (t: seq<real>)
    requires ValidGrids(g)
    ensures |t| == g.controlN && StrictlyIncreasing(t)
    ensures forall k :: 0 <= k < g.controlN ==> t[k] == g.tIdxs[k]
  {
    OutputGrids(g);
    g.tIdxs[..g.controlN]
  }

  datatype Trajectories = Trajectories(v: seq<real>, a: seq<real>, j: seq<real>)

  /** The solution resampled from the optimizer grid onto the output grid (jerk lives on
      the optimizer grid without its last time). */
  function OutputTrajectories(sol: Solution, g: Grids): (r: Trajectories)
    requires ValidGrids(g) && SolutionFits(sol, g)
    ensures |r.v| == g.controlN && |r.a| == g.controlN && |r.j| == g.controlN
    ensures Within(r.v, Lowest(sol.vSolution), Highest(sol.vSolution))
    ensures Within(r.a, Lowest(sol.aSolution), Highest(sol.aSolution))
    ensures Within(r.j, Lowest(sol.jSolution), Highest(sol.jSolution))
    ensures forall k, m :: 0 <= k < g.controlN && 0 <= m < |g.tIdxsMpc| && g.tIdxs[k] == g.tIdxsMpc[m] ==>
              r.v[k] == sol.vSolution[m] && r.a[k] == sol.aSolution[m]
  {
    OutputGrids(g);
    var tOut := OutputTimes(g);
    var jGrid := g.tIdxsMpc[..|g.tIdxsMpc| - 1];
    ResampleWithin(tOut, g.tIdxsMpc, sol.vSolution, Lowest(sol.vSolution), Highest(sol.vSolution));
    ResampleWithin(tOut, g.tIdxsMpc, sol.aSolution, Lowest(sol.aSolution), Highest(sol.aSolution));
    ResampleWithin(tOut, jGrid, sol.jSolution, Lowest(sol.jSolution), Highest(sol.jSolution));
    ResampleAtKnots(tOut, g.tIdxsMpc, sol.vSolution);
    ResampleAtKnots(tOut, g.tIdxsMpc, sol.aSolution);
    Trajectories(Resample(tOut, g.tIdxsMpc, sol.vSolution), Resample(tOut, g.tIdxsMpc, sol.aSolution),
                 Resample(tOut, jGrid, sol.jSolution))
  }

  /** The output acceleration one cycle period ahead, the next cycle's starting acceleration. */
  function NextAccel(aTraj: seq<real>, g: Grids): (a: real)
    requires ValidGrids(g) && |aTraj| == g.controlN
    ensures Lowest(aTraj) <= a <= Highest(aTraj)
    ensures forall m :: 0 <= m < g.controlN && g.dtMdl == g.tIdxs[m] ==> a == aTraj[m]
    ensures g.dtMdl >= g.tIdxs[g.controlN - 1] ==> a == aTraj[g.controlN - 1]
  {
    var tOut := OutputTimes(g);
    InterpWithin(g.dtMdl, tOut, aTraj, Lowest(aTraj), Highest(aTraj));
    InterpFlatAbove(g.dtMdl, tOut, aTraj);
    forall m | 0 <= m < g.controlN && g.dtMdl == g.tIdxs[m]
      ensures Interp(g.dtMdl, tOut, aTraj) == aTraj[m]
    {
      InterpAtKnot(tOut, aTraj, m);
    }
    Interp(g.dtMdl, tOut, aTraj)
  }

  /** Trapezoidal advance of the filtered speed over one period `dt`. */
  function Advance(vPrev: real, aPrev: real, aNew: real, dt: real): (v: real)
    ensures v - vPrev == dt * (aPrev + aNew) / 2.0
    ensures dt >= 0.0 ==> dt * Min(aPrev, aNew) <= v - vPrev <= dt * Max(aPrev, aNew)
    ensures aPrev == aNew ==> v - vPrev == dt * aNew
  {
    TrapezoidBetween(dt, aPrev, aNew);
    vPrev + dt * (aPrev + aNew) / 2.0
  }

  lemma TrapezoidBetween(dt: real, a: real, b: real)
    ensures dt >= 0.0 ==> dt * Min(a, b) <= dt * (a + b) / 2.0 <= dt * Max(a, b)
  {
    if dt >= 0.0 {
      ScaleMonotone(dt, Min(a, b), (a + b) / 2.0);
      ScaleMonotone(dt, (a + b) / 2.0, Max(a, b));
      assert dt * ((a + b) / 2.0) == dt * (a + b) / 2.0;
    }
  }

  lemma ExtremesWithin(s: seq<real>, lo: real, hi: real)
    requires |s| >= 1 && Within(s, lo, hi)
    ensures lo <= Lowest(s) && Highest(s) <= hi
  {
    var i :| 0 <= i < |s| && s[i] == Lowest(s);
    var j :| 0 <= j < |s| && s[j] == Highest(s);
  }

  /** The part of a cycle after the optimizer runs. */
  function Conclude(st: PlannerState, standstill: bool, sol: Solution, g: Grids): (r: PlannerState)
    requires ValidGrids(g) && SolutionFits(sol, g)
    ensures |r.vTrajectory| == g.controlN && |r.aTrajectory| == g.controlN && |r.jTrajectory| == g.controlN
    // level-triggered collision warning
    ensures r.fcw <==> sol.crashCnt > FcwCrashCount && !standstill
    // the output trajectories stay within the range of the solution they were sampled from
    ensures Within(r.vTrajectory, Lowest(sol.vSolution), Highest(sol.vSolution))
    ensures Within(r.aTrajectory, Lowest(sol.aSolution), Highest(sol.aSolution))
    // warm start: the new seed acceleration comes from the solution's range, and the
    // filtered speed advances by the trapezoid of the old and new seeds
    ensures Lowest(sol.aSolution) <= r.aDesired <= Highest(sol.aSolution)
    ensures r.vFilter == Advance(st.vFilter, st.aDesired, r.aDesired, g.dtMdl)
    ensures r.aTrajectory == OutputTrajectories(sol, g).a && r.aDesired == NextAccel(r.aTrajectory, g)
    ensures r.mode == st.mode && r.arbiter == st.arbiter && r.cruiseSource == st.cruiseSource
  {
    var traj := OutputTrajectories(sol, g);
    var aNew := NextAccel(traj.a, g);
    var vNew := Advance(st.vFilter, st.aDesired, aNew, g.dtMdl);
    ExtremesWithin(traj.a, Lowest(sol.aSolution), Highest(sol.aSolution));
    st.(fcw := sol.crashCnt > FcwCrashCount && !standstill,
        vTrajectory := traj.v, aTrajectory := traj.a, jTrajectory := traj.j,
        aDesired := aNew, vFilter := vNew)
  }

  /** One whole planning cycle, given the optimizer's answer `sol` to the request that
      `Prepare` builds. */
  function Update(st: PlannerState, obs: Observation, read: bool, cfg: Config, sol: Solution): (r: PlannerState)
    requires ValidConfig(cfg) && SolutionFits(sol, cfg.grids)
    ensures r.fcw <==> sol.crashCnt > FcwCrashCount && !obs.standstill
    ensures obs.e2eConditional ==> r.mode == r.arbiter.modeLast
    ensures r.mode == UpdateMode(st, obs, read, cfg.car).mode && r.arbiter == UpdateMode(st, obs, read, cfg.car).arbiter
    ensures !obs.e2eConditional ==> r.arbiter == st.arbiter && r.paramReadCounter == st.paramReadCounter + 1
    ensures !obs.e2eConditional && !ParamReadDue(st.paramReadCounter, read) ==> r.mode == st.mode
    ensures |r.vTrajectory| == cfg.grids.controlN && |r.aTrajectory| == cfg.grids.controlN
    ensures Lowest(sol.aSolution) <= r.aDesired <= Highest(sol.aSolution)
    ensures var p := PrepareState(st, obs, read, cfg);
            && r.aTrajectory == OutputTrajectories(sol, cfg.grids).a
            && r.aDesired == NextAccel(r.aTrajectory, cfg.grids)
            && r.vFilter == Advance(p.vFilter, p.aDesired, r.aDesired, cfg.grids.dtMdl)
            && r.vModelError == p.vModelError
    ensures r.cruiseSource == CycleSolution(obs, cfg).source
  {
    var p := Prepare(st, obs, read, cfg);
    Conclude(p.state, obs.standstill, sol, cfg.grids)
  }
}

=== FILE: speed_arbiter.dfy ===
/** Arbitration between the cruise set speed and the advisory speed controllers (vision
    turn, speed limit, map turn speed): the candidate with the lowest target velocity wins,
    and among equal velocities the one listed first. */
module SpeedArbiter {
  import opened Numeric

  datatype Source = Cruise | Turn | Limit | TurnLimit

  /** Listing order of the candidates, which is also the tie-break priority. */
  function Rank(s: Source): nat
  {
    match s
    case Cruise => 0
    case Turn => 1
    case Limit => 2
    case TurnLimit => 3
  }

  /** What an advisory controller exposes after its update of this cycle. */
  datatype Advisory = Advisory(isActive: bool, aTarget: real, vTarget: real)

  datatype Candidate = Candidate(source: Source, accel: ExtReal, velocity: real)

  function CruiseCandidate(vCruise: real): Candidate
  {
    Candidate(Cruise, PosInf, vCruise)
  }

  function AdvisoryCandidate(source: Source, a: Advisory): Candidate
  {
    Candidate(source, Fin(a.aTarget), a.vTarget)
  }

  /** The candidate of an advisory controller, if it is active. */
  function Offer(source: Source, a: Advisory): seq<Candidate>
  {
    if a.isActive then [AdvisoryCandidate(source, a)] else []
  }

  /** The candidates in insertion order: cruise always, then each active advisory. */
  function Candidates(vCruise: real, turn: Advisory, limit: Advisory, turnLimit: Advisory): (cs: seq<Candidate>)
    ensures |cs| >= 1 && cs[0] == CruiseCandidate(vCruise)
    ensures forall c :: c in cs <==>
              c == CruiseCandidate(vCruise)
              || (turn.isActive && c == AdvisoryCandidate(Turn, turn))
              || (limit.isActive && c == AdvisoryCandidate(Limit, limit))
              || (turnLimit.isActive && c == AdvisoryCandidate(TurnLimit, turnLimit))
    ensures forall i, j :: 0 <= i < j < |cs| ==> Rank(cs[i].source) < Rank(cs[j].source)
  {
    [CruiseCandidate(vCruise)] + Offer(Turn, turn) + Offer(Limit, limit) + Offer(TurnLimit, turnLimit)
  }

  /** Left-to-right scan that keeps the current best unless a later candidate is strictly
      slower, given that `best` is the first minimum of the first `i` candidates. */
  function FirstMinFrom(cs: seq<Candidate>, best: nat, i: nat): (k: nat)
    requires best < i <= |cs|
    requires forall j :: 0 <= j < i ==> cs[best].velocity <= cs[j].velocity
    requires forall j :: 0 <= j < best ==> cs[j].velocity > cs[best].velocity
    ensures k < |cs|
    ensures forall j :: 0 <= j < |cs| ==> cs[k].velocity <= cs[j].velocity
    ensures forall j :: 0 <= j < k ==> cs[j].velocity > cs[k].velocity
    decreases |cs| - i
  {
    if i == |cs| then best
    else if cs[i].velocity < cs[best].velocity then FirstMinFrom(cs, i, i + 1)
    else FirstMinFrom(cs, best, i + 1)
  }

  /** Index of the first candidate with the least velocity. */
  function FirstMin(cs: seq<Candidate>): (k: nat)
    requires |cs| >= 1
    ensures k < |cs|
    ensures forall j :: 0 <= j < |cs| ==> cs[k].velocity <= cs[j].velocity
    ensures forall j :: 0 <= j < k ==> cs[j].velocity > cs[k].velocity
  {
    FirstMinFrom(cs, 0, 1)
  }

  /** The chosen source with its acceleration and velocity targets. */
  function CruiseSolutions(vCruise: real, turn: Advisory, limit: Advisory, turnLimit: Advisory): (r: Candidate)
    ensures r in Candidates(vCruise, turn, limit, turnLimit)
    ensures r.velocity <= vCruise
    ensures turn.isActive ==> r.velocity <= turn.vTarget
    ensures limit.isActive ==> r.velocity <= limit.vTarget
    ensures turnLimit.isActive ==> r.velocity <= turnLimit.vTarget
    ensures r.source == Cruise ==> r == CruiseCandidate(vCruise)
    ensures r.source == Turn ==> turn.isActive && r == AdvisoryCandidate(Turn, turn)
                                 && turn.vTarget < vCruise
    ensures r.source == Limit ==> limit.isActive && r == AdvisoryCandidate(Limit, limit)
                                  && limit.vTarget < vCruise
                                  && (turn.isActive ==> limit.vTarget < turn.vTarget)
    ensures r.source == TurnLimit ==> turnLimit.isActive && r == AdvisoryCandidate(TurnLimit, turnLimit)
                                      && turnLimit.vTarget < vCruise
                                      && (turn.isActive ==> turnLimit.vTarget < turn.vTarget)
                                      && (limit.isActive ==> turnLimit.vTarget < limit.vTarget)
    ensures !turn.isActive && !limit.isActive && !turnLimit.isActive ==> r == CruiseCandidate(vCruise)
  {
    var cs := Candidates(vCruise, turn, limit, turnLimit);
    var k := FirstMin(cs);
    assert cs[0] in cs;
    assert turn.isActive ==> AdvisoryCandidate(Turn, turn) in cs;
    assert limit.isActive ==> AdvisoryCandidate(Limit, limit) in cs;
    assert turnLimit.isActive ==> AdvisoryCandidate(TurnLimit, turnLimit) in cs;
    cs[k]
  }

  /** The choice is the least candidate in the total order "velocity, then listing rank". */
  lemma ChoiceIsLexicographicMinimum(vCruise: real, turn: Advisory, limit: Advisory, turnLimit: Advisory, c: Candidate)
    requires c in Candidates(vCruise, turn, limit, turnLimit)
    ensures var r := CruiseSolutions(vCruise, turn, limit, turnLimit);
            r.velocity < c.velocity || (r.velocity == c.velocity && Rank(r.source) <= Rank(c.source))
  {
    var cs := Candidates(vCruise, turn, limit, turnLimit);
    var k := FirstMin(cs);
    var j :| 0 <= j < |cs| && cs[j] == c;
    if j < k {
      assert cs[j].velocity > cs[k].velocity;
    } else if j > k {
      assert Rank(cs[k].source) < Rank(cs[j].source);
    }
  }
}
